=== FILE: README.md ===
# Slot scheduling for a mobile car-detailing business, in Dafny

This project models the scheduling core of a car-detailing booking system. It has three
separate engines.

- **The calendar service** (getcalendar.py) offers travel-aware appointment slots. A cursor
  walks the business day from 1:00 to 22:00 in 10-minute steps. It skips over calendar
  events. After the previous job it keeps a 15-minute buffer, rounded up to the
  10-minute grid, plus the driving time when an estimator answers. Before the next job it
  keeps the same buffer and driving time. There is one exception. When the estimator is asked
  about a leg and has no data, the previous job only bounds the start by its bare end, and
  the next job is not checked at all. As the code is written the travel lookup never returns
  data (see "## Findings"), so this exception covers every neighbouring job with a location. The service also keeps a five-minute hold table
  keyed by `"<date> <time>"`. Booking creation places travel blocks around the new booking.
- **The Django service** (scheduler/services.py) offers slots on a 30-minute grid. The grid
  lies inside the weekday's business hours. A slot is offered when no pending or confirmed
  booking, calendar event or hold occupies it. This service has its own hold table, keyed by
  the slot's 24-hour time.
- **The travel helpers** (directions.py) parse duration texts such as "1 hour 5 mins". They
  compute the departure instant the travel-time service is asked about, and they choose
  between driving directly to the next job or going home in between.

Times are integers. An instant counts microseconds, Python's datetime resolution, so that
local day `d` starts at `d * Day` (module `Clock`). This keeps seconds exact where the source
keeps them, for example in `round_up_to_10` and in the departure adjustment. Duration
arguments are whole minutes.

The calendar, the travel-time service and the clock are parameters:
- the day's events are a sequence, in the start order the calendar returns;
- the travel estimator is a function returning minutes or nothing;
- the Distance Matrix is a function returning seconds;
- `now` is a number.

Modules:
- `Common`: `Option`, and Python's `next(...)` over a list and over its reversal.
- `Clock`: the units, calendar fields and weekday.
- `TravelSlots`: the calendar service's slot engine and its route.
- `PendingHolds`: the calendar service's hold table and release route.
- `BookingBlocks`: the booking and travel-block arithmetic of `create_booking`.
- `SchedulerModels`: bookings, services and business-hours records.
- `GridHolds`: the Django service's hold table and the 12/24-hour conversion of its keys.
- `GridSlots`: the Django service's business hours, rounding, availability test and grid.
- `DurationText`: `_convert_time_to_minutes`, with `str.split`, `int` and the lower-cased
  "hour" test.
- `Directions`: the departure adjustment, the travel table and the direct-or-home decision.

## Model

| member | source | states |
|---|---|---|
| Clock.Weekday | scheduler/services.py:61 | `date.weekday()` is a day index from 0 to 6 |
| Clock.WeekdayCycle | scheduler/services.py:61 | 1970-01-01 is a Thursday (3, counting Monday as 0); each day's weekday follows the previous day's, Sunday wrapping to Monday, with period seven |
| TravelSlots.RoundUpTo10 | getcalendar.py:156-162 | the result is at or after the input and less than 10 minutes later; its minute is a multiple of 10, with minute 60 carried into the next hour; seconds are kept |
| TravelSlots.RoundUpTo10Idempotent | getcalendar.py:156-162 | a time already on a 10-minute mark is left unchanged |
| TravelSlots.FirstCandidate | getcalendar.py:173-179 | the first cursor value is opening time on other days; for today it is the later of opening and now rounded up to a 10-minute mark with its seconds kept, so it is never before now and less than 10 minutes after that later time |
| TravelSlots.MaxOverlapEnd | getcalendar.py:199-204 | the overlap jump target is the end of an overlapping event, no overlapping event ends later, and it lies after the candidate start |
| TravelSlots.EarliestStart | getcalendar.py:219-243 | the predecessor bound in each case: previous end plus 15 minutes, rounded up to a 10-minute mark with seconds kept, without a consulted estimator; previous end plus travel plus 15, rounded up the same way, when travel is known; the bare previous end when the estimator answers nothing |
| TravelSlots.Advance | getcalendar.py:182-295 | every loop iteration moves the cursor strictly forward, so the loop terminates |
| TravelSlots.PreviousIndexIsPrevious | getcalendar.py:208-211 | the previous booking is exactly the last listed event ending by the slot start, whether or not it has a location |
| TravelSlots.NextIndexIsNext | getcalendar.py:213-216 | the next booking is exactly the first listed event starting at or after the slot end |
| TravelSlots.AcceptIffFeasible | getcalendar.py:185-293 | the loop body approves a candidate if and only if it overlaps no event, respects the predecessor bound and reaches the successor in time |
| TravelSlots.RejectionCases | getcalendar.py:197-295 | overlap happens exactly when some event overlaps, and the cursor jumps to the latest overlapping end; a too-early start moves to the bound plus 10 minutes; a too-late one moves to the next start plus 10 minutes; an approved one moves 10 minutes |
| TravelSlots.FeasibleGaps | getcalendar.py:219-286 | an offered start leaves 15 minutes (plus travel when known) after the previous event and before the next; with an unanswering estimator only the previous end binds, and the next event imposes nothing |
| TravelSlots.RejectionSkipsFeasibleStart | getcalendar.py:245-295 | after an event ending 11:00, the candidate 11:00 is rejected with bound 11:20 and the cursor goes to 11:30, though 11:20 is feasible |
| TravelSlots.Walk | getcalendar.py:182-295 | the cursor loop examines a chain of values from the first candidate up to the last start that fits, and records exactly the approved ones, in increasing order |
| TravelSlots.CalculateAvailableSlots | getcalendar.py:154-299 | every offered slot lasts the service duration, starts no earlier than the first candidate, ends by 22:00 and is feasible; slots are strictly increasing; they are exactly the approved values on the cursor's path |
| TravelSlots.EmptyDayIsFullGrid | getcalendar.py:182-295 | with no events every candidate is approved and the cursor steps 10 minutes |
| TravelSlots.ServiceDuration | getcalendar.py:572-582 | "Essential Clean" lasts 60 minutes and "Premium Detail" 120; no other service has a duration |
| TravelSlots.FullAddress | getcalendar.py:565 | the destination is the address, followed by " Unit <unit>" exactly when the unit is non-empty; a missing address is written "None" |
| TravelSlots.AvailableSlotsRoute | getcalendar.py:555-597 | an unknown service is refused; otherwise the answer the route means to send is the engine's slots unchanged: every start the engine's walk accepts is offered, each slot lasts the service's duration, lies within the business day, is not before now on today's date and is feasible for the destination, and the slots are in increasing order |
| PendingHolds.CleanExpired | getcalendar.py:68-76 | the sweep removes exactly the holds that expired strictly before now and keeps the rest unchanged, for any key type; the grid service's `_clean_expired_holds` (scheduler/services.py:235-243) is the same sweep and `GridHolds.HoldSlot` uses it |
| PendingHolds.CleanExpiredIdempotent | getcalendar.py:68-76 | a second sweep at the same instant removes nothing |
| PendingHolds.CleanExpiredMonotone | getcalendar.py:68-76 | a later sweep keeps no more keys than an earlier one |
| PendingHolds.HoldDuration | getcalendar.py:96 | 120 minutes for "Premium Detail", 60 for any other name |
| PendingHolds.HoldSlot | getcalendar.py:78-103 | a live hold on the key refuses the request and keeps that hold; otherwise the key is held until now plus 5 minutes with the service's duration; other keys lose exactly their expired holds; a refused key keeps its live hold |
| PendingHolds.HoldIsExclusive | getcalendar.py:78-103 | after a successful hold, every request for the same key within five minutes is refused |
| PendingHolds.HoldLapses | getcalendar.py:68-103 | once the five minutes have passed, the next request for the key succeeds |
| PendingHolds.ReleaseHold | getcalendar.py:640-663 | a request without date or time fails and changes nothing; otherwise the key is absent afterwards, "released" means it was present, and other keys are untouched |
| PendingHolds.ReleaseIsIdempotent | getcalendar.py:647-663 | a second release reports that no hold was found and changes nothing |
| PendingHolds.HoldReleaseHold | getcalendar.py:647-663 | hold, release, then hold again succeeds |
| BookingBlocks.PreviousBookingIsPrevious | getcalendar.py:372-376 | the previous booking is exactly the last listed event ending by the start whose id differs from the new event's |
| BookingBlocks.NextBookingIsNext | getcalendar.py:378-382 | the next booking is exactly the first listed event starting at or after the end whose id differs from the new event's |
| BookingBlocks.InboundBlock | getcalendar.py:388-405 | a block exists exactly when the previous event has a location and the estimator answers; it lasts travel plus 15 minutes and ends at the booking start |
| BookingBlocks.OutboundBlock | getcalendar.py:422-439 | a block exists exactly when the next event has a location and the estimator answers; it lasts travel plus 15 minutes from the booking end |
| BookingBlocks.PlanBooking | getcalendar.py:317-439 | an unknown service fails; the booking lasts the service's duration; each block exists exactly when the address is non-empty and the neighbour found by id exclusion yields one |
| BookingBlocks.BlocksAbutBooking | getcalendar.py:401-439 | the inbound block ends at the booking start, the outbound block starts at the booking end, and each lasts at least 15 minutes |
| BookingBlocks.PreviousAfterInsertion | getcalendar.py:372-376 | excluding the new event's id from the listing that contains it finds the previous event of the listing without it |
| BookingBlocks.NextAfterInsertion | getcalendar.py:378-382 | excluding the new event's id from the listing that contains it finds the next event of the listing without it |
| BookingBlocks.CoveredWhenSameRequest | getcalendar.py:393-396 | with no unit and one estimator answering both requests alike, the booking's estimates are covered by the engine's |
| Clock.WholeMinute | getcalendar.py:164-166 | the offered instant shown without seconds and parsed back: a whole minute, at or before the instant and less than a minute earlier |
| BookingBlocks.PreviousOfWholeMinute | getcalendar.py:372-376 | on a calendar of whole-minute events, the previous event of the booked whole minute is the previous event of the offered instant |
| BookingBlocks.NextOfWholeMinute | getcalendar.py:378-382 | on a calendar of whole-minute events, with the offered slot free of overlaps, the next event after the booked end is the next event after the offered end |
| BookingBlocks.InboundFits | getcalendar.py:388-405 | for a slot offered at any instant and booked at its whole minute, on a calendar of whole-minute events, the inbound block starts no earlier than the previous event ends, whenever the engine's estimate for that leg covers the booking's |
| BookingBlocks.OutboundFits | getcalendar.py:422-439 | for a slot offered at any instant and booked at its whole minute, on a calendar of whole-minute events, the outbound block ends no later than the next event starts, whenever the engine's estimate at the offered end covers the booking's at the booked end |
| BookingBlocks.InboundOfPlanFits | getcalendar.py:314-405 | the inbound block that `create_booking` plans for the booked whole minute starts no earlier than the previous event ends |
| BookingBlocks.OutboundOfPlanFits | getcalendar.py:314-439 | the outbound block that `create_booking` plans for the booked whole minute ends no later than the next event starts |
| BookingBlocks.TravelBlocksFitOfferedSlot | getcalendar.py:314-439 | a slot offered at any instant, seconds included, and booked at the whole minute its text shows gets travel blocks lying between it and its neighbours, on a calendar of whole-minute events, wherever the calendar lists the new booking, for any engine destination and estimator that cover the booking's estimates |
| BookingBlocks.UnitBreaksFit | getcalendar.py:565 | the covering hypothesis cannot be dropped: with a unit, one estimator knowing only the bare address lets the engine offer 11:00 after an event ending at 11:00, and the booking's inbound block then starts inside that event |
| GridHolds.To24Hour | scheduler/services.py:210 | `%I` with `%p` gives an hour from 0 to 23 that is afternoon exactly for PM and agrees with the 12-hour hour modulo 12 |
| GridHolds.To12 | scheduler/services.py:113 | `%I:%M %p` writes a valid 12-hour time with the same minute, PM exactly from noon |
| GridHolds.To24HourOfTo12 | scheduler/services.py:113 | reading back the written 12-hour time gives the 24-hour hour |
| GridHolds.To12OfTo24Hour | scheduler/services.py:210 | writing a read 12-hour time gives the same 12-hour time |
| GridHolds.DisplayOf | scheduler/services.py:113 | the displayed time of any slot start is a valid 12-hour time |
| GridHolds.HoldKeyOfDisplayedSlot | scheduler/services.py:209-211 | holding a slot by its displayed date and time produces exactly the key its availability test looks up |
| GridHolds.KeyOfInjective | scheduler/services.py:148 | two whole-minute slot starts share a key only when they are equal |
| GridHolds.HoldSlot | scheduler/services.py:203-233 | an unreadable time fails; a live hold on the key refuses; an unknown service fails and leaves the table as the sweep left it, the key unheld; otherwise the key is held until now plus 5 minutes with the service's duration; other keys lose exactly their expired holds; a refused key keeps its live hold |
| GridHolds.HoldIsExclusive | scheduler/services.py:203-229 | after a successful hold, every request for the same date and time within five minutes is refused |
| GridSlots.OpenRecords | scheduler/services.py:63-67 | the selected records are exactly the non-closed ones for the weekday, each as many times as it occurs |
| GridSlots.BusinessHoursFor | scheduler/services.py:59-69 | no hours exactly when no non-closed record exists for the weekday; found exactly when one such record exists, and it is that record; ambiguous exactly when two or more exist, counting duplicate rows |
| GridSlots.RoundUpToNextSlot | scheduler/services.py:157-170 | it succeeds exactly when the minute is at most 30; the result is then strictly later and at most 30 minutes later, on a whole hour or half hour with seconds cleared |
| GridSlots.RoundUpFailsAfterHalfHour | scheduler/services.py:159-164 | every instant whose minute of the hour is 31 to 59, seconds included, reaches the invalid minute 60 |
| GridSlots.NextHalfHour | scheduler/services.py:157-170 | the first half-hour mark strictly after now, at most 30 minutes later |
| GridSlots.RoundUpToNextSlotAgrees | scheduler/services.py:157-170 | where the source's rounding succeeds it equals the next half-hour mark |
| GridSlots.InactiveBookingsNeverBlock | scheduler/services.py:130-135 | adding a cancelled or completed booking, or another business's booking, does not change availability |
| GridSlots.IsSlotAvailable | scheduler/services.py:122-155 | a slot is available exactly when every pending or confirmed booking of the business lies wholly before or wholly after it, the calendar reports nothing in it, and no hold is recorded under its key (an expired, unswept hold still blocks) |
| GridSlots.TouchingBookingsNeverBlock | scheduler/services.py:130-135 | a booking ending at the slot start or starting at the slot end does not block it |
| GridSlots.OverlappingBookingBlocks | scheduler/services.py:129-139 | a pending or confirmed booking of the business overlapping the slot makes it unavailable |
| GridSlots.GridScan | scheduler/services.py:106-116 | the scan returns exactly the available starts, 30 minutes apart from the first, whose slot ends by closing, in increasing order |
| GridSlots.GetAvailableSlots | scheduler/services.py:71-120 | the error for a service of another business or an unknown one; no slots without hours; the error for several records or for rounding in the second half of an hour; a scan start at or after closing on today's date gives no slots; otherwise exactly the available grid points from the scan start that fit before closing, each after now on today's date, increasing |
| DurationText.SplitTokens | directions.py:152 | every part is a non-empty run without whitespace |
| DurationText.SplitJoin | directions.py:152 | splitting tokens joined by single spaces gives the tokens back |
| DurationText.ParseInt | directions.py:153 | `int()` accepts exactly an optional sign followed by digits with single underscores between digits; the sign fixes the sign of the value |
| DurationText.ParseNatToString | directions.py:153 | `int(str(n)) == n` |
| DurationText.ConvertTimeToMinutes | directions.py:148-159 | the conversion succeeds exactly when the first token, and the third one when it is read, are integers; then the value is the hours times 60 plus the minutes, or the first token alone |
| DurationText.DurationPhraseRoundTrip | directions.py:148-159 | reading back the duration text written, without days, for any number of minutes gives that number |
| DurationText.MinutesText | directions.py:156-157 | "N mins" gives N |
| DurationText.HoursText | directions.py:151-155 | "H hours" gives H * 60 |
| DurationText.HourAndMinutesText | directions.py:151-155 | "H hour M mins" gives H * 60 + M |
| DurationText.ThreeTokensIgnoreMinutes | directions.py:154 | with exactly three tokens the minutes are not read: "1 hour 5" gives 60 |
| DurationText.NonNumericLeadingTokenRaises | directions.py:153-159 | a leading token that is not a number raises |
| Directions.AdjustDeparture | directions.py:21-35 | the departure keeps the requested hour and minute with seconds cleared, on today's or tomorrow's date, within `[now, now + 1 day)` |
| Directions.AdjustDepartureUnique | directions.py:21-35 | it is the only such instant in that window |
| Directions.AdjustDepartureIdempotent | directions.py:21-35 | adjusting twice is adjusting once |
| Directions.SecondsToMinutes | directions.py:54 | floor division: the whole minutes are at most the seconds, and less than one minute short of them |
| Directions.PlaceList | directions.py:15-16 | a string becomes a one-element list; a tuple keeps its elements |
| Directions.GetTravelTimesAsWritten | directions.py:17-18 | for a string or tuple destination the function yields no table |
| Directions.GetTravelTimes | directions.py:11-57 | the table has a row per origin and a column per destination, each the service's seconds at the adjusted departure floored to minutes |
| Directions.ScenarioLookups | directions.py:111-116 | the corrected table holds the three entries the scenario looks up; the table as written is absent |
| Directions.EstimatorsReadTables | directions.py:11-60 | the engine's estimator reads the corrected table; as written it never answers |
| Directions.AsWrittenEngineIgnoresTravel | directions.py:17-18 | with the table as written, the slot engine's predecessor bound is the bare previous end and the successor imposes no gap |
| Directions.TravelScenario | directions.py:102-146 | home exactly when the gap is at least the direct drive plus 60 minutes and exceeds both home legs plus 90; the adjusted start leaves the drive taken plus 30 minutes; the time at home fills the gap between the two legs |
| Directions.HomeStaysHomeOnLongerGap | directions.py:119-140 | a longer gap never turns a trip home into a direct drive |
| Directions.HomeStaysHomeOnShorterDrives | directions.py:129-140 | shorter drives to and from home keep a trip home a trip home, and the time at home grows by exactly the minutes saved |

## Left out

- Google Calendar access is outside the model: credentials, `_get_day_events`,
  `_get_calendar_events` and event insertion. The day's events and the calendar-busy test
  are inputs.
- The `create_booking` retry loop on SSL errors, ICS generation and event descriptions are
  outside the model: they are I/O and library calls.
- Google Maps calls, Places autocomplete and `lru_cache` are outside the model. The Distance
  Matrix is an input function. A list argument, which `lru_cache` cannot hash, is not
  modelled. Cached answers that outlive the `now` they were computed at are not modelled.
- Flask and Django glue is outside the model: request parsing, JSON responses, Stripe, mail,
  templates, admin, URLs, and `strptime` of date strings. Dates arrive as day numbers and
  12-hour times as parsed fields.
- Time zones and daylight saving are not modelled: every local day is 24 hours.
- The 12-hour text of offered slots (`strftime('%I:%M %p').lstrip('0')`) is not modelled.
  Slots are returned as instants. Its one effect on booking, that the seconds are dropped, is
  Clock.WholeMinute.
- Concurrency is not modelled: the hold tables have no locks and are modelled as
  sequential maps.
- Debug printing is not modelled.
- PendingHolds.HoldSlot: the source reads the clock twice, once to sweep and once for the
  expiry. The model uses a single `now`.
- GridHolds.HoldSlot: likewise reads `timezone.now()` twice, in `_clean_expired_holds`
  (scheduler/services.py:237) and for the expiry (scheduler/services.py:221). The model uses a
  single `now`.
- PendingHolds.SlotKey: `"<date> <time>"` keys built from different date and time texts can
  coincide, as in the source. The model shares that behaviour and proves nothing about it.
- PendingHolds.ReleaseHold: a date or time that is present but is JSON null or a number is
  rendered by Python's f-string. The model takes both as text.
- PendingHolds.ReleaseHold: the HTTP response is not modelled. getcalendar.py never binds
  `jsonify` (its imports are lines 1-12), so every `return jsonify(...)` of the release route
  (getcalendar.py:642, 654, 660) raises `NameError`. The handler's own `jsonify` call
  (getcalendar.py:667) raises again, and Flask answers HTTP 500. The table change at
  getcalendar.py:652 has already happened. The model gives the outcome the route means to report.
- TravelSlots.AvailableSlotsRoute: for the same unbound `jsonify`, the route's refusal
  (getcalendar.py:582, outside the `try`) raises `NameError`, and so does its answer
  (getcalendar.py:593), whose handler at getcalendar.py:597 raises again. Either way Flask
  answers HTTP 500. The model gives the answer the
  route means to send. The hold route fails the same way (getcalendar.py:551, 553) after the
  hold is taken at getcalendar.py:546.
- All-day calendar events are not modelled. Such an event has only `start.date`, so
  `datetime.fromisoformat(event['start'].get('dateTime'))` (getcalendar.py:190-192, 220, 249)
  raises `TypeError` and the whole slot request fails. Every modelled event has start and end
  instants.
- BookingBlocks.TravelBlocksFitOfferedSlot: the fit holds only when the engine's estimates
  cover the booking's. The route asks about "<address> Unit <unit>" at query time, and
  `create_booking` asks about the bare address later, so nothing in the source guarantees
  this. BookingBlocks.UnitBreaksFit shows a case where it fails. The fit is also proved only
  for calendars whose events start and end on whole minutes. The slot text drops seconds, so
  after an event ending at 10:00:30 a booking at the truncated minute can get an inbound block
  that starts up to a minute before that event ends.
- BookingBlocks.InboundFits: proved only for calendars whose events lie on whole minutes, for
  the reason given under TravelBlocksFitOfferedSlot.
- BookingBlocks.OutboundFits: proved only for calendars whose events lie on whole minutes, for
  the reason given under TravelBlocksFitOfferedSlot.
- The calendar service never consults its hold table when offering slots. The model
  reproduces that.
- SchedulerModels.HoursRecord: the `BusinessHours` model is imported by
  scheduler/services.py but is not part of the repository's scheduler/models.py. Its
  fields are taken from their use in `get_business_hours` and `get_available_slots`. As the
  repository stands, `from .models import BusinessHours, Service, Booking`
  (scheduler/services.py:8) raises `ImportError`. So the Django service cannot be imported,
  and the grid engine is modelled as its code reads.
- GridSlots.BusinessHoursFor: the records are taken to be the business's own. The query's
  filter on the business is not modelled.
- GridSlots.IsSlotAvailable: the Google Calendar query is an input predicate.
- DurationText.ParseInt: only ASCII digits are modelled. Python's `int()` also accepts
  other Unicode decimal digits.
- DurationText.LowerChar: only ASCII letters are lowered. No other character lowers to a
  letter of "hour", so the "hour" test is unaffected.
- Directions.TravelScenario: the source compares floating-point minutes. The model
  compares exact integer microseconds, so rounding at the boundaries is not modelled.
- Directions.TravelScenario: `calculate_travel_scenario` passes the table's entry
  dictionaries to `_convert_time_to_minutes`, which calls `.lower()` on them and fails. The
  decision is modelled on the integer minutes it evidently means to read.
- The travel table's `text` field is not modelled. Only `minutes` is kept.
- Directions.TableEstimator: always answers. In the source, a matrix element without a
  `duration` raises `KeyError` in `get_travel_times` (directions.py:53-60); its
  `except Exception` catches it and the whole table is `None`. The Distance Matrix input is
  taken to give a duration for every pair.
- `get_place_suggestions` in directions.py is not modelled: it is a Places Autocomplete call
  and a reshaping of its answer.
- `_filter_slots_with_travel_time` in scheduler/services.py is not modelled. It is an
  unfinished placeholder that nothing calls.

## Findings

| source | as written | input that shows it | evidently intended | confidence | as-written member | corrected member |
|---|---|---|---|---|---|---|
| scheduler/services.py:159-164 | a minute of 31 to 59 rounds up to 60, and `dt.replace(minute=60)` raises `ValueError`, so `get_available_slots` for today fails during the second half of every hour | `now` at 10:45 | the next half-hour mark, 11:00 | high; not executed | GridSlots.RoundUpFailsAfterHalfHour | GridSlots.RoundUpToNextSlotAgrees |
| directions.py:18 | `backend.pyisinstance` is not defined, so every string or tuple destination raises `NameError`, which is caught; `get_travel_times` returns `None` and no travel time ever reaches the slot engine, the travel blocks or the scenario | `get_travel_times("A", "B", t)` | `isinstance(destinations, str)`, building the table | high; not executed | Directions.AsWrittenEngineIgnoresTravel | Directions.ScenarioLookups |

=== FILE: booking_blocks.dfy ===
/** The interval arithmetic of getcalendar.py's `create_booking`: the booking's end from its
    service, its neighbours in the day's calendar (which already lists the booking itself), and
    the travel blocks of travel-plus-15 minutes that end at its start and begin at its end. */
module BookingBlocks {
  import opened Common
  import opened Clock
  import opened TravelSlots

  datatype Block = Block(start: int, end: int)

  /** The booking interval with the travel blocks placed around it. */
  datatype Plan = Plan(start: int, end: int, inbound: Option<Block>, outbound: Option<Block>)

  /** An unknown service leaves `service_duration` as None and `start_time + None` raises. */
  datatype PlanResult = Planned(plan: Plan) | UnknownService

  /** `previous_booking`: the last listed event, other than the booking, ending by `start`. */
  function PreviousBooking(events: seq<Event>, self: string, start: int): Option<nat>
  {
    LastWhere(events, (e: Event) => e.end <= start && e.id != self)
  }

  /** `next_booking`: the first listed event, other than the booking, starting at or after `end`. */
  function NextBooking(events: seq<Event>, self: string, end: int): Option<nat>
  {
    FirstWhere(events, (e: Event) => e.start >= end && e.id != self)
  }

  ghost predicate IsPreviousOther(events: seq<Event>, self: string, i: int, start: int)
  {
    && 0 <= i < |events| && events[i].end <= start && events[i].id != self
    && forall k :: i < k < |events| && events[k].id != self ==> start < events[k].end
  }

  ghost predicate IsNextOther(events: seq<Event>, self: string, j: int, end: int)
  {
    && 0 <= j < |events| && end <= events[j].start && events[j].id != self
    && forall k :: 0 <= k < j && events[k].id != self ==> events[k].start < end
  }

  lemma PreviousBookingIsPrevious(events: seq<Event>, self: string, start: int)
    ensures PreviousBooking(events, self, start).Some? ==>
              IsPreviousOther(events, self, PreviousBooking(events, self, start).value, start)
    ensures forall i :: IsPreviousOther(events, self, i, start) ==> PreviousBooking(events, self, start) == Some(i)
  {
    var p := (e: Event) => e.end <= start && e.id != self;
    forall i | IsPreviousOther(events, self, i, start) ensures LastWhere(events, p) == Some(i) {
      assert p(events[i]);
    }
  }

  lemma NextBookingIsNext(events: seq<Event>, self: string, end: int)
    ensures NextBooking(events, self, end).Some? ==>
              IsNextOther(events, self, NextBooking(events, self, end).value, end)
    ensures forall j :: IsNextOther(events, self, j, end) ==> NextBooking(events, self, end) == Some(j)
  {
    var p := (e: Event) => e.start >= end && e.id != self;
    forall j | IsNextOther(events, self, j, end) ensures FirstWhere(events, p) == Some(j) {
      assert p(events[j]);
    }
  }

  /** The block from the previous booking, when it has a location and the estimator answers:
      travel plus 15 minutes, ending when the booking starts. */
  function InboundBlock(prev: Event, address: string, start: int, travel: Estimator): (r: Option<Block>)
    ensures r.Some? <==> HasLocation(prev.location) && travel(prev.location.value, address, prev.end).Some?
    ensures r.Some? ==>
              r.value.end == start
              && r.value.start == start - (travel(prev.location.value, address, prev.end).value + BufferMinutes) * Minute
  {
    if !HasLocation(prev.location) then None
    else
      match travel(prev.location.value, address, prev.end)
      case None => None
      case Some(m) => Some(Block(start - (m + BufferMinutes) * Minute, start))
  }

  /** The block to the next booking, when it has a location and the estimator answers: travel
      plus 15 minutes, starting when the booking ends. */
  function OutboundBlock(next: Event, address: string, end: int, travel: Estimator): (r: Option<Block>)
    ensures r.Some? <==> HasLocation(next.location) && travel(address, next.location.value, end).Some?
    ensures r.Some? ==>
              r.value.start == end
              && r.value.end == end + (travel(address, next.location.value, end).value + BufferMinutes) * Minute
  {
    if !HasLocation(next.location) then None
    else
      match travel(address, next.location.value, end)
      case None => None
      case Some(m) => Some(Block(end, end + (m + BufferMinutes) * Minute))
  }

  /** `create_booking` for the booking `self` starting at `start`: its end from the service, and
      travel blocks only when the booking has an address. */
  function PlanBooking(events: seq<Event>, self: string, start: int, service: string,
                       address: Option<string>, travel: Estimator): (r: PlanResult)
    ensures r.UnknownService? <==> ServiceDuration(service).None?
    ensures r.Planned? ==>
              r.plan.start == start && r.plan.end == start + ServiceDuration(service).value * Minute
    ensures r.Planned? ==>
              (r.plan.inbound.Some? <==>
                 HasLocation(address)
                 && exists i :: IsPreviousOther(events, self, i, start)
                                && InboundBlock(events[i], address.value, start, travel).Some?)
    ensures r.Planned? && r.plan.inbound.Some? ==>
              exists i :: IsPreviousOther(events, self, i, start)
                          && r.plan.inbound == InboundBlock(events[i], address.value, start, travel)
    ensures r.Planned? ==>
              (r.plan.outbound.Some? <==>
                 HasLocation(address)
                 && exists j :: IsNextOther(events, self, j, r.plan.end)
                                && OutboundBlock(events[j], address.value, r.plan.end, travel).Some?)
    ensures r.Planned? && r.plan.outbound.Some? ==>
              exists j :: IsNextOther(events, self, j, r.plan.end)
                          && r.plan.outbound == OutboundBlock(events[j], address.value, r.plan.end, travel)
  {
    match ServiceDuration(service)
    case None => UnknownService
    case Some(d) =>
      var end := start + d * Minute;
      if !HasLocation(address) then Planned(Plan(start, end, None, None))
      else
        PreviousBookingIsPrevious(events, self, start);
        NextBookingIsNext(events, self, end);
        var inbound :=
          match PreviousBooking(events, self, start)
          case None => None
          case Some(i) => InboundBlock(events[i], address.value, start, travel);
        var outbound :=
          match NextBooking(events, self, end)
          case None => None
          case Some(j) => OutboundBlock(events[j], address.value, end, travel);
        Planned(Plan(start, end, inbound, outbound))
  }

  /** The blocks abut the booking and each lasts at least the 15-minute buffer. */
  lemma BlocksAbutBooking(events: seq<Event>, self: string, start: int, service: string,
                          address: Option<string>, travel: Estimator)
    requires PlanBooking(events, self, start, service, address, travel).Planned?
    ensures var p := PlanBooking(events, self, start, service, address, travel).plan;
      && (p.inbound.Some? ==> p.inbound.value.end == p.start
                              && p.inbound.value.start + BufferMinutes * Minute <= p.start)
      && (p.outbound.Some? ==> p.outbound.value.start == p.end
                               && p.end + BufferMinutes * Minute <= p.outbound.value.end)
  {
    var p := PlanBooking(events, self, start, service, address, travel).plan;
    if HasLocation(address) {
      var inbound: Option<Block> := None;
      var outbound: Option<Block> := None;
      match PreviousBooking(events, self, start) {
        case None =>
        case Some(i) =>
          inbound := InboundBlock(events[i], address.value, start, travel);
          InboundAbuts(events[i], address.value, start, travel);
      }
      match NextBooking(events, self, p.end) {
        case None =>
        case Some(j) =>
          outbound := OutboundBlock(events[j], address.value, p.end, travel);
          OutboundAbuts(events[j], address.value, p.end, travel);
      }
      assert p == Plan(start, p.end, inbound, outbound);
    } else {
      assert p.inbound.None? && p.outbound.None?;
    }
  }

  lemma InboundAbuts(prev: Event, address: string, start: int, travel: Estimator)
    ensures var r := InboundBlock(prev, address, start, travel);
      r.Some? ==> r.value.end == start && r.value.start + BufferMinutes * Minute <= start
  {
  }

  lemma OutboundAbuts(next: Event, address: string, end: int, travel: Estimator)
    ensures var r := OutboundBlock(next, address, end, travel);
      r.Some? ==> r.value.start == end && end + BufferMinutes * Minute <= r.value.end
  {
  }

  /** In the listing with the booking inserted at position `at`, skipping the booking's own
      id finds the same previous event as the listing without it. */
  lemma PreviousAfterInsertion(events: seq<Event>, booking: Event, at: int, start: int, i: int)
    requires 0 <= at <= |events|
    requires forall k :: 0 <= k < |events| ==> events[k].id != booking.id
    requires IsPreviousOther(events[..at] + [booking] + events[at..], booking.id, i, start)
    ensures i != at
    ensures var w := events[..at] + [booking] + events[at..];
      IsPrevious(events, if i < at then i else i - 1, start) && w[i] == events[if i < at then i else i - 1]
  {
    var w := events[..at] + [booking] + events[at..];
    assert forall k :: 0 <= k < at ==> w[k] == events[k];
    assert forall k :: at < k < |w| ==> w[k] == events[k - 1];
    var e := if i < at then i else i - 1;
    forall k | e < k < |events| ensures start < events[k].end {
      var kw := if k < at then k else k + 1;
      assert w[kw] == events[k];
    }
  }

  lemma NextAfterInsertion(events: seq<Event>, booking: Event, at: int, end: int, j: int)
    requires 0 <= at <= |events|
    requires forall k :: 0 <= k < |events| ==> events[k].id != booking.id
    requires IsNextOther(events[..at] + [booking] + events[at..], booking.id, j, end)
    ensures j != at
    ensures var w := events[..at] + [booking] + events[at..];
      IsNext(events, if j < at then j else j - 1, end) && w[j] == events[if j < at then j else j - 1]
  {
    var w := events[..at] + [booking] + events[at..];
    assert forall k :: 0 <= k < at ==> w[k] == events[k];
    assert forall k :: at < k < |w| ==> w[k] == events[k - 1];
    var e := if j < at then j else j - 1;
    forall k | 0 <= k < e ensures events[k].start < end {
      var kw := if k < at then k else k + 1;
      assert w[kw] == events[k];
    }
  }

  /** The estimate `create_booking` obtains for the leg from `from` (left at `leave`) to the
      booking's `address` is covered by the one the slot engine used for the same leg to its own
      destination text `dest`: whenever the booking's estimator answers, the engine consulted
      its estimator too and got at least as many minutes.  The two requests name the address
      differently (the route appends " Unit <unit>", the booking does not) and are made at
      different times, so this is a hypothesis about the travel service, not a fact. */
  predicate InboundCovered(engine: Option<Estimator>, dest: string, travel: Estimator, address: string,
                           from: Option<string>, leave: int)
  {
    HasLocation(from) && travel(from.value, address, leave).Some? ==>
      && Consults(from, dest, engine)
      && engine.value(from.value, dest, leave).Some?
      && travel(from.value, address, leave).value <= engine.value(from.value, dest, leave).value
  }

  /** The same for the leg from the booking's address to `to`.  The booking leaves at its own
      end `leave`; the engine asked about leaving at the end of the slot it offered,
      `engineLeave`, which is later by the seconds the booking's time text dropped. */
  predicate OutboundCovered(engine: Option<Estimator>, dest: string, travel: Estimator, address: string,
                            to: Option<string>, leave: int, engineLeave: int)
  {
    HasLocation(to) && travel(address, to.value, leave).Some? ==>
      && Consults(to, dest, engine)
      && engine.value(dest, to.value, engineLeave).Some?
      && travel(address, to.value, leave).value <= engine.value(dest, to.value, engineLeave).value
  }

  /** Without a unit and with one estimator answering both requests alike, the hypothesis holds. */
  lemma CoveredWhenSameRequest(address: string, travel: Estimator, loc: Option<string>, leave: int)
    requires address != ""
    ensures InboundCovered(Some(travel), FullAddress(Some(address), None), travel, address, loc, leave)
    ensures OutboundCovered(Some(travel), FullAddress(Some(address), None), travel, address, loc, leave, leave)
  {
  }

  /** Calendar events start and end on whole minutes and do not end before they start. */
  predicate OnMinutes(events: seq<Event>)
  {
    forall k :: 0 <= k < |events| ==>
      events[k].start % Minute == 0 && events[k].end % Minute == 0 && events[k].start <= events[k].end
  }

  /** The previous event of the booking's whole minute is the previous event of the offered
      instant: no whole-minute end lies strictly between them. */
  lemma PreviousOfWholeMinute(events: seq<Event>, t: int, e: int)
    requires OnMinutes(events) && IsPrevious(events, e, WholeMinute(t))
    ensures IsPrevious(events, e, t)
  {
    forall k | e < k < |events| ensures t < events[k].end {
      MinuteGap(WholeMinute(t), events[k].end);
    }
  }

  /** The next event after the booking's end is the next event after the offered slot's end:
      an event starting in between would start at the booking's end, inside the offered slot. */
  lemma NextOfWholeMinute(events: seq<Event>, t: int, d: nat, e: int)
    requires OnMinutes(events) && 1 <= d
    requires forall i :: 0 <= i < |events| ==> !Overlaps(events[i], t, t + d * Minute)
    requires IsNext(events, e, WholeMinute(t) + d * Minute)
    ensures IsNext(events, e, t + d * Minute)
  {
    var end := WholeMinute(t) + d * Minute;
    ShiftWholeMinute(WholeMinute(t), d);
    if end < events[e].start {
      MinuteGap(end, events[e].start);
    } else {
      assert !Overlaps(events[e], t, t + d * Minute);
    }
  }

  lemma InboundFits(events: seq<Event>, booking: Event, at: int, offered: int, d: nat, dest: string,
                    engine: Option<Estimator>, address: string, travel: Estimator, i: int)
    requires 0 <= at <= |events|
    requires forall k :: 0 <= k < |events| ==> events[k].id != booking.id
    requires OnMinutes(events) && booking.start == WholeMinute(offered)
    requires Feasible(events, offered, d, dest, engine)
    requires var w := events[..at] + [booking] + events[at..];
      IsPreviousOther(w, booking.id, i, booking.start) && InboundBlock(w[i], address, booking.start, travel).Some?
      && InboundCovered(engine, dest, travel, address, w[i].location, w[i].end)
    ensures var w := events[..at] + [booking] + events[at..];
      var e := if i < at then i else i - 1;
      && IsPrevious(events, e, booking.start)
      && events[e].end <= InboundBlock(w[i], address, booking.start, travel).value.start
  {
    var w := events[..at] + [booking] + events[at..];
    PreviousAfterInsertion(events, booking, at, booking.start, i);
    var e := if i < at then i else i - 1;
    assert w[i] == events[e];
    PreviousOfWholeMinute(events, offered, e);
    assert EarliestStart(events[e], dest, engine) <= offered;
    InboundAfterPrevious(events[e], address, offered, travel, dest, engine);
  }

  /** When the engine's bound from `prev` was met by the offered instant and its estimate covers
      the booking's, the inbound block before the booking's whole minute starts no earlier than
      `prev` ends. */
  lemma InboundAfterPrevious(prev: Event, address: string, offered: int, travel: Estimator,
                             dest: string, engine: Option<Estimator>)
    requires prev.end % Minute == 0
    requires InboundBlock(prev, address, WholeMinute(offered), travel).Some?
    requires InboundCovered(engine, dest, travel, address, prev.location, prev.end)
    requires EarliestStart(prev, dest, engine) <= offered
    ensures prev.end <= InboundBlock(prev, address, WholeMinute(offered), travel).value.start
  {
    var mb := travel(prev.location.value, address, prev.end).value;
    var m := engine.value(prev.location.value, dest, prev.end).value;
    assert prev.end + (m + BufferMinutes) * Minute <= EarliestStart(prev, dest, engine);
    ShiftWholeMinute(prev.end, m + BufferMinutes);
    WholeMinuteBelow(prev.end + (m + BufferMinutes) * Minute, offered);
    assert (mb + BufferMinutes) * Minute <= (m + BufferMinutes) * Minute;
  }

  lemma OutboundFits(events: seq<Event>, booking: Event, at: int, offered: int, d: nat, dest: string,
                     engine: Option<Estimator>, address: string, travel: Estimator, j: int)
    requires 0 <= at <= |events|
    requires forall k :: 0 <= k < |events| ==> events[k].id != booking.id
    requires OnMinutes(events) && booking.start == WholeMinute(offered) && 1 <= d
    requires Feasible(events, offered, d, dest, engine)
    requires var w := events[..at] + [booking] + events[at..];
      IsNextOther(w, booking.id, j, booking.start + d * Minute)
      && OutboundBlock(w[j], address, booking.start + d * Minute, travel).Some?
      && OutboundCovered(engine, dest, travel, address, w[j].location, booking.start + d * Minute, offered + d * Minute)
    ensures var w := events[..at] + [booking] + events[at..];
      var e := if j < at then j else j - 1;
      && IsNext(events, e, booking.start + d * Minute)
      && OutboundBlock(w[j], address, booking.start + d * Minute, travel).value.end <= events[e].start
  {
    var w := events[..at] + [booking] + events[at..];
    var end := booking.start + d * Minute;
    NextAfterInsertion(events, booking, at, end, j);
    var e := if j < at then j else j - 1;
    assert w[j] == events[e] && IsNext(events, e, end);
    NextReachable(events, offered, d, dest, engine, e);
    OutboundBeforeNext(events[e], address, end, offered + d * Minute, travel, dest, engine);
  }

  /** A slot feasible at the offered instant can reach the event that follows the booking made
      at its whole minute. */
  lemma NextReachable(events: seq<Event>, offered: int, d: nat, dest: string, engine: Option<Estimator>, e: int)
    requires OnMinutes(events) && 1 <= d
    requires Feasible(events, offered, d, dest, engine)
    requires IsNext(events, e, WholeMinute(offered) + d * Minute)
    ensures !TooLateFor(events[e], offered + d * Minute, dest, engine)
  {
    NextOfWholeMinute(events, offered, d, e);
  }

  /** When the engine found the next event reachable from the offered slot's end and its
      estimate covers the booking's, the outbound block from the booking's (no later) end ends
      no later than `next` starts. */
  lemma OutboundBeforeNext(next: Event, address: string, end: int, engineEnd: int, travel: Estimator,
                           dest: string, engine: Option<Estimator>)
    requires end <= engineEnd
    requires OutboundBlock(next, address, end, travel).Some?
    requires OutboundCovered(engine, dest, travel, address, next.location, end, engineEnd)
    requires !TooLateFor(next, engineEnd, dest, engine)
    ensures OutboundBlock(next, address, end, travel).value.end <= next.start
  {
    var mb := travel(address, next.location.value, end).value;
    var m := engine.value(dest, next.location.value, engineEnd).value;
    assert engineEnd + (m + BufferMinutes) * Minute <= next.start;
    assert (mb + BufferMinutes) * Minute <= (m + BufferMinutes) * Minute;
  }

  /** A planned inbound block starts no earlier than the previous event of `events` ends. */
  ghost predicate InboundFitsBetween(events: seq<Event>, start: int, r: PlanResult)
  {
    r.Planned? && r.plan.inbound.Some? ==>
      exists i :: IsPrevious(events, i, start) && events[i].end <= r.plan.inbound.value.start
  }

  /** A planned outbound block ends no later than the next event of `events` starts. */
  ghost predicate OutboundFitsBetween(events: seq<Event>, r: PlanResult)
  {
    r.Planned? && r.plan.outbound.Some? ==>
      exists j :: IsNext(events, j, r.plan.end) && r.plan.outbound.value.end <= events[j].start
  }

  /** A booking made for a slot the engine offered gets travel blocks that fit between it and
      its neighbours: the inbound block starts no earlier than the previous event ends, and the
      outbound block ends no later than the next event starts.  The slot is offered at the
      instant `offered`, shown as 12-hour text without seconds, and booked at that text's whole
      minute.  The engine ran with destination `dest` and estimator `engine`; the booking, with
      address `address` and estimator `travel`, whose answers the engine's cover for every event
      of the day.  The calendar's events lie on whole minutes, and it lists the new booking
      among the events the engine saw, at any position. */
  lemma TravelBlocksFitOfferedSlot(events: seq<Event>, booking: Event, at: int, offered: int, service: string,
                                   dest: string, engine: Option<Estimator>, address: string, travel: Estimator)
    requires 0 <= at <= |events|
    requires forall k :: 0 <= k < |events| ==> events[k].id != booking.id
    requires OnMinutes(events) && booking.start == WholeMinute(offered)
    requires ServiceDuration(service).Some?
    requires Feasible(events, offered, ServiceDuration(service).value, dest, engine)
    requires forall k :: 0 <= k < |events| ==>
               InboundCovered(engine, dest, travel, address, events[k].location, events[k].end)
    requires forall k :: 0 <= k < |events| ==>
               OutboundCovered(engine, dest, travel, address, events[k].location,
                               booking.start + ServiceDuration(service).value * Minute,
                               offered + ServiceDuration(service).value * Minute)
    ensures PlanBooking(events[..at] + [booking] + events[at..], booking.id, booking.start,
                        service, Some(address), travel).Planned?
    ensures InboundFitsBetween(events, booking.start,
                               PlanBooking(events[..at] + [booking] + events[at..], booking.id, booking.start,
                                           service, Some(address), travel))
    ensures OutboundFitsBetween(events,
                                PlanBooking(events[..at] + [booking] + events[at..], booking.id, booking.start,
                                            service, Some(address), travel))
  {
    InboundOfPlanFits(events, booking, at, offered, service, dest, engine, address, travel);
    OutboundOfPlanFits(events, booking, at, offered, service, ServiceDuration(service).value, dest, engine, address, travel);
  }

  lemma InboundOfPlanFits(events: seq<Event>, booking: Event, at: int, offered: int, service: string,
                          dest: string, engine: Option<Estimator>, address: string, travel: Estimator)
    requires 0 <= at <= |events|
    requires forall k :: 0 <= k < |events| ==> events[k].id != booking.id
    requires OnMinutes(events) && booking.start == WholeMinute(offered)
    requires ServiceDuration(service).Some?
    requires Feasible(events, offered, ServiceDuration(service).value, dest, engine)
    requires forall k :: 0 <= k < |events| ==>
               InboundCovered(engine, dest, travel, address, events[k].location, events[k].end)
    ensures InboundFitsBetween(events, booking.start,
                               PlanBooking(events[..at] + [booking] + events[at..], booking.id, booking.start,
                                           service, Some(address), travel))
  {
    var w := events[..at] + [booking] + events[at..];
    var r := PlanBooking(w, booking.id, booking.start, service, Some(address), travel);
    if r.plan.inbound.Some? {
      var i :| IsPreviousOther(w, booking.id, i, booking.start)
               && r.plan.inbound == InboundBlock(w[i], address, booking.start, travel);
      PreviousAfterInsertion(events, booking, at, booking.start, i);
      var e := if i < at then i else i - 1;
      assert w[i] == events[e];
      InboundFits(events, booking, at, offered, ServiceDuration(service).value, dest, engine, address, travel, i);
      assert IsPrevious(events, e, booking.start) && events[e].end <= r.plan.inbound.value.start;
    }
  }

  lemma OutboundOfPlanFits(events: seq<Event>, booking: Event, at: int, offered: int, service: string,
                           d: nat, dest: string, engine: Option<Estimator>, address: string, travel: Estimator)
    requires 0 <= at <= |events|
    requires forall k :: 0 <= k < |events| ==> events[k].id != booking.id
    requires OnMinutes(events) && booking.start == WholeMinute(offered)
    requires ServiceDuration(service) == Some(d)
    requires Feasible(events, offered, d, dest, engine)
    requires forall k :: 0 <= k < |events| ==>
               OutboundCovered(engine, dest, travel, address, events[k].location,
                               booking.start + d * Minute, offered + d * Minute)
    ensures OutboundFitsBetween(events,
                                PlanBooking(events[..at] + [booking] + events[at..], booking.id, booking.start,
                                            service, Some(address), travel))
  {
    var w := events[..at] + [booking] + events[at..];
    var r := PlanBooking(w, booking.id, booking.start, service, Some(address), travel);
    if r.plan.outbound.Some? {
      var j :| IsNextOther(w, booking.id, j, r.plan.end)
               && r.plan.outbound == OutboundBlock(w[j], address, r.plan.end, travel);
      assert r.plan.end == booking.start + d * Minute;
      OutboundOfPlanFitsAt(events, booking, at, offered, d, dest, engine, address, travel, j);
      var e := if j < at then j else j - 1;
      assert IsNext(events, e, r.plan.end) && r.plan.outbound.value.end <= events[e].start;
    }
  }

  lemma OutboundOfPlanFitsAt(events: seq<Event>, booking: Event, at: int, offered: int, d: nat, dest: string,
                             engine: Option<Estimator>, address: string, travel: Estimator, j: int)
    requires 0 <= at <= |events|
    requires forall k :: 0 <= k < |events| ==> events[k].id != booking.id
    requires OnMinutes(events) && booking.start == WholeMinute(offered) && 1 <= d
    requires Feasible(events, offered, d, dest, engine)
    requires forall k :: 0 <= k < |events| ==>
               OutboundCovered(engine, dest, travel, address, events[k].location,
                               booking.start + d * Minute, offered + d * Minute)
    requires var w := events[..at] + [booking] + events[at..];
      IsNextOther(w, booking.id, j, booking.start + d * Minute)
      && OutboundBlock(w[j], address, booking.start + d * Minute, travel).Some?
    ensures var w := events[..at] + [booking] + events[at..];
      var e := if j < at then j else j - 1;
      && IsNext(events, e, booking.start + d * Minute)
      && OutboundBlock(w[j], address, booking.start + d * Minute, travel).value.end <= events[e].start
  {
    var w := events[..at] + [booking] + events[at..];
    NextAfterInsertion(events, booking, at, booking.start + d * Minute, j);
    var e := if j < at then j else j - 1;
    assert w[j] == events[e];
    OutboundFits(events, booking, at, offered, d, dest, engine, address, travel, j);
  }

  /** The hypothesis is needed: the route's destination carries the unit, the booking's address
      does not.  With one estimator that knows "A" but not "A Unit 5", the engine offers 11:00
      after an event ending at 11:00 (no data, so no travel is added), and the booking's inbound
      block of 30 + 15 minutes then starts at 10:15, inside that event. */
  lemma UnitBreaksFit()
    ensures var travel: Estimator := (a: string, b: string, t: int) => if b == "A" then Some(30) else None;
      var prev := Event("p", 10 * Hour, 11 * Hour, Some("X"));
      var booking := Event("b", 11 * Hour, 12 * Hour, Some("A"));
      && FullAddress(Some("A"), Some("5")) == "A Unit 5"
      && Feasible([prev], 11 * Hour, 60, "A Unit 5", Some(travel))
      && var r := PlanBooking([prev, booking], "b", 11 * Hour, "Essential Clean", Some("A"), travel);
         r.Planned? && r.plan.inbound.Some? && r.plan.inbound.value.start < prev.end
  {
    var travel: Estimator := (a: string, b: string, t: int) => if b == "A" then Some(30) else None;
    var prev := Event("p", 10 * Hour, 11 * Hour, Some("X"));
    var booking := Event("b", 11 * Hour, 12 * Hour, Some("A"));
    assert "A Unit 5" != "A";
    assert !AnyOverlap([prev], 11 * Hour, 11 * Hour + 60 * Minute);
    assert PreviousIndex([prev], 11 * Hour) == Some(0);
    assert NextIndex([prev], 11 * Hour + 60 * Minute) == None;
    AcceptIffFeasible([prev], 11 * Hour, 60, "A Unit 5", Some(travel));
    PreviousBookingIsPrevious([prev, booking], "b", 11 * Hour);
    assert IsPreviousOther([prev, booking], "b", 0, 11 * Hour);
  }
}

=== FILE: clock.dfy ===
/** Wall-clock time as the scheduling code sees it once its timezone-aware datetimes are
    read in the business's local zone.  An instant is an integer number of microseconds
    (Python's datetime resolution), counted so that local day `d` begins at `d * Day`.
    Daylight-saving transitions are not represented: every day is 24 hours long. */
module Clock {

  const Second: int := 1000000
  const Minute: int := 60 * Second
  const Hour: int := 60 * Minute
  const Day: int := 24 * Hour

  /** Local calendar day of an instant (`dt.date()`), as a day number. */
  function DayOf(t: int): int { t / Day }

  /** `dt.hour` */
  function HourOfDay(t: int): int { (t % Day) / Hour }

  /** `dt.minute` */
  function MinuteOfHour(t: int): int { (t % Hour) / Minute }

  /** The instant at hour `h`, minute `m` of day `d` (`date.replace(hour=h, minute=m)` on midnight). */
  function At(d: int, h: int, m: int): int { d * Day + h * Hour + m * Minute }

  /** `date.weekday()`: Monday is 0.  Day 0 (1970-01-01) was a Thursday. */
  function Weekday(d: int): (w: int)
    ensures 0 <= w < 7
  {
    (d + 3) % 7
  }

  /** The weekday of day 0 is Thursday, and each day's weekday follows the previous day's,
      Sunday (6) wrapping round to Monday (0). */
  lemma WeekdayCycle(d: int)
    ensures Weekday(0) == 3
    ensures Weekday(d + 1) == (Weekday(d) + 1) % 7
    ensures Weekday(d + 7) == Weekday(d)
  {
  }

  /** A non-zero multiple of a positive number is at least that number in size. */
  lemma {:induction false} MultipleSize(k: int, b: int)
    requires 0 < b
    ensures k >= 1 ==> k * b >= b
    ensures k <= -1 ==> k * b <= -b
    decreases if k < 0 then -k else k
  {
    if k > 1 {
      MultipleSize(k - 1, b);
      assert k * b == (k - 1) * b + b;
    } else if k < -1 {
      MultipleSize(k + 1, b);
      assert k * b == (k + 1) * b - b;
    }
  }

  /** Quotient and remainder are unique: a value written as `q * b + r` with `0 <= r < b` has
      quotient `q` and remainder `r`. */
  lemma DivMod(a: int, b: int, q: int, r: int)
    requires 0 < b && 0 <= r < b && a == q * b + r
    ensures a / b == q && a % b == r
  {
    var q0, r0 := a / b, a % b;
    assert (q - q0) * b == r0 - r;
    MultipleSize(q - q0, b);
  }

  /** The whole minute at or before `t`: what survives of an instant written as `%I:%M %p`
      and read back. */
  function WholeMinute(t: int): (r: int)
    ensures r % Minute == 0 && r <= t < r + Minute
  {
    DivMod(t - t % Minute, Minute, t / Minute, 0);
    t - t % Minute
  }

  /** Two distinct whole-minute instants are at least a minute apart. */
  lemma MinuteGap(x: int, y: int)
    requires x % Minute == 0 && y % Minute == 0 && x < y
    ensures x + Minute <= y
  {
    var a, b := x / Minute, y / Minute;
    assert (b - a) * Minute == y - x;
    MultipleSize(b - a, Minute);
  }

  /** Whole minutes added to a whole-minute instant give a whole-minute instant. */
  lemma ShiftWholeMinute(x: int, k: int)
    requires x % Minute == 0
    ensures (x + k * Minute) % Minute == 0
  {
    DivMod(x + k * Minute, Minute, x / Minute + k, 0);
  }

  /** A whole-minute instant at or before `t` is at or before `t`'s whole minute. */
  lemma WholeMinuteBelow(x: int, t: int)
    requires x % Minute == 0 && x <= t
    ensures x <= WholeMinute(t)
  {
    if WholeMinute(t) < x {
      MinuteGap(WholeMinute(t), x);
    }
  }

  /** An instant splits into whole hours, the minute within the hour and the part below a minute. */
  lemma Split(t: int)
    ensures t == (t / Hour) * Hour + MinuteOfHour(t) * Minute + t % Minute
    ensures 0 <= MinuteOfHour(t) < 60
  {
    var q, s := t / Hour, t % Hour;
    var m, rest := s / Minute, s % Minute;
    assert t == q * Hour + s;
    assert s == m * Minute + rest;
    assert 0 <= m < 60 by {
      MultipleSize(m - 59, Minute);
      assert (m - 59) * Minute == m * Minute - 59 * Minute;
    }
    assert t == (q * 60 + m) * Minute + rest;
    DivMod(t, Minute, q * 60 + m, rest);
  }

  /** ...and that split is unique. */
  lemma Compose(h: int, m: int, rest: int)
    requires 0 <= m < 60 && 0 <= rest < Minute
    ensures (h * Hour + m * Minute + rest) % Minute == rest
    ensures MinuteOfHour(h * Hour + m * Minute + rest) == m
    ensures (h * Hour + m * Minute + rest) / Hour == h
  {
    var t := h * Hour + m * Minute + rest;
    var s := m * Minute + rest;
    assert s < Hour by {
      assert m * Minute <= 59 * Minute;
    }
    DivMod(t, Hour, h, s);
    DivMod(s, Minute, m, rest);
    assert t == (h * 60 + m) * Minute + rest;
    DivMod(t, Minute, h * 60 + m, rest);
  }

  /** An instant lies within its own day. */
  lemma DayBounds(t: int)
    ensures DayOf(t) * Day <= t < DayOf(t) * Day + Day
  {
  }

  /** An instant splits into its day, hour of day, minute of hour and the part below a minute. */
  lemma SplitDay(t: int)
    ensures t == At(DayOf(t), HourOfDay(t), MinuteOfHour(t)) + t % Minute
    ensures 0 <= HourOfDay(t) < 24 && 0 <= MinuteOfHour(t) < 60
  {
    var d, s := t / Day, t % Day;
    var h, u := s / Hour, s % Hour;
    assert t == d * Day + s;
    assert s == h * Hour + u;
    assert 0 <= h < 24 by {
      MultipleSize(h - 23, Hour);
      assert (h - 23) * Hour == h * Hour - 23 * Hour;
    }
    assert t == (d * 24 + h) * Hour + u;
    DivMod(t, Hour, d * 24 + h, u);
    Split(t);
  }

  /** ...and that split is unique. */
  lemma ComposeDay(d: int, h: int, m: int, rest: int)
    requires 0 <= h < 24 && 0 <= m < 60 && 0 <= rest < Minute
    ensures DayOf(At(d, h, m) + rest) == d
    ensures HourOfDay(At(d, h, m) + rest) == h
    ensures MinuteOfHour(At(d, h, m) + rest) == m
    ensures (At(d, h, m) + rest) % Minute == rest
  {
    var t := At(d, h, m) + rest;
    var s := h * Hour + m * Minute + rest;
    Compose(h, m, rest);
    assert s < Day by {
      assert m * Minute + rest < Hour by {
        assert m * Minute <= 59 * Minute;
      }
      assert h * Hour <= 23 * Hour;
    }
    assert t == d * Day + s;
    DivMod(t, Day, d, s);
    assert t == (d * 24 + h) * Hour + m * Minute + rest;
    Compose(d * 24 + h, m, rest);
  }
}

=== FILE: common.dfy ===
/** Small shared vocabulary: an optional value, and the two sequence searches the
    scheduling code performs with Python's `next(... for e in events if ...)` and
    `next(... for e in reversed(events) if ...)` idiom. */
module Common {

  datatype Option<+T> = None | Some(value: T)

  /** Index of the first element satisfying `p`, as `next(e for e in s if p(e), None)` finds it. */
  function FirstWhere<T>(s: seq<T>, p: T -> bool): (r: Option<nat>)
    ensures r.Some? ==> r.value < |s| && p(s[r.value])
    ensures r.Some? ==> forall k :: 0 <= k < r.value ==> !p(s[k])
    ensures r.None? ==> forall k :: 0 <= k < |s| ==> !p(s[k])
  {
    FirstWhereFrom(s, p, 0)
  }

  function FirstWhereFrom<T>(s: seq<T>, p: T -> bool, from: nat): (r: Option<nat>)
    requires from <= |s|
    requires forall k :: 0 <= k < from ==> !p(s[k])
    ensures r.Some? ==> from <= r.value < |s| && p(s[r.value])
    ensures r.Some? ==> forall k :: 0 <= k < r.value ==> !p(s[k])
    ensures r.None? ==> forall k :: 0 <= k < |s| ==> !p(s[k])
    decreases |s| - from
  {
    if from == |s| then None
    else if p(s[from]) then Some(from)
    else FirstWhereFrom(s, p, from + 1)
  }

  /** Index of the last element satisfying `p`, as a scan of `reversed(s)` finds it. */
  function LastWhere<T>(s: seq<T>, p: T -> bool): (r: Option<nat>)
    ensures r.Some? ==> r.value < |s| && p(s[r.value])
    ensures r.Some? ==> forall k :: r.value < k < |s| ==> !p(s[k])
    ensures r.None? ==> forall k :: 0 <= k < |s| ==> !p(s[k])
  {
    if |s| == 0 then None
    else if p(s[|s| - 1]) then Some(|s| - 1)
    else LastWhere(s[..|s| - 1], p)
  }

  function Max(a: int, b: int): int { if a < b then b else a }
}

=== FILE: directions.dfy ===
/** The pure parts of directions.py: the departure time `get_travel_times` asks the Distance
    Matrix service about, the conversion of its durations from seconds to minutes, the table it
    builds, and the direct-or-home decision of `calculate_travel_scenario`. */
module Directions {
  import opened Common
  import opened Clock
  import TravelSlots

  // ---------------------------------------------------------------------------
  // Departure time

  /** `get_travel_times`'s adjusted departure: the requested hour and minute on today's date
      with seconds cleared, moved to tomorrow when that is already past.  This is the one instant
      in `[now, now + 1 day)` with that clock time and no seconds. */
  function AdjustDeparture(departure: int, now: int): (r: int)
    ensures now <= r < now + Day
    ensures r % Minute == 0
    ensures HourOfDay(r) == HourOfDay(departure) && MinuteOfHour(r) == MinuteOfHour(departure)
    ensures DayOf(r) == DayOf(now) || DayOf(r) == DayOf(now) + 1
  {
    var d := DayOf(now);
    var h := HourOfDay(departure);
    var m := MinuteOfHour(departure);
    SplitDay(departure);
    var today := At(d, h, m);
    ComposeDay(d, h, m, 0);
    ComposeDay(d + 1, h, m, 0);
    DayBounds(now);
    DayBounds(today);
    assert At(d + 1, h, m) == today + Day;
    if today < now then today + Day else today
  }

  /** Two instants with the same day, hour and minute and no seconds are the same instant. */
  lemma SameClockTime(x: int, y: int)
    requires x % Minute == 0 && y % Minute == 0
    requires HourOfDay(x) == HourOfDay(y) && MinuteOfHour(x) == MinuteOfHour(y)
    ensures x - y == (DayOf(x) - DayOf(y)) * Day
  {
    SplitDay(x);
    SplitDay(y);
    assert At(DayOf(x), HourOfDay(x), MinuteOfHour(x)) - At(DayOf(y), HourOfDay(y), MinuteOfHour(y))
        == DayOf(x) * Day - DayOf(y) * Day;
  }

  /** The adjusted departure is the only candidate: any instant in `[now, now + 1 day)` with
      the requested clock time and no seconds is it. */
  lemma AdjustDepartureUnique(departure: int, now: int, x: int)
    requires now <= x < now + Day && x % Minute == 0
    requires HourOfDay(x) == HourOfDay(departure) && MinuteOfHour(x) == MinuteOfHour(departure)
    ensures x == AdjustDeparture(departure, now)
  {
    var r := AdjustDeparture(departure, now);
    SameClockTime(x, r);
    MultipleSize(DayOf(x) - DayOf(r), Day);
  }

  /** Adjusting an already adjusted departure changes nothing. */
  lemma AdjustDepartureIdempotent(departure: int, now: int)
    ensures AdjustDeparture(AdjustDeparture(departure, now), now) == AdjustDeparture(departure, now)
  {
    var r := AdjustDeparture(departure, now);
    AdjustDepartureUnique(r, now, r);
  }

  // ---------------------------------------------------------------------------
  // Seconds to minutes

  /** `element['duration']['value'] // 60`: whole minutes, rounded down. */
  function SecondsToMinutes(seconds: int): (m: int)
    ensures m * 60 <= seconds < m * 60 + 60
  {
    seconds / 60
  }

  // ---------------------------------------------------------------------------
  // The travel table

  /** A `str` or a `tuple` of addresses, the two argument shapes `lru_cache` lets through. */
  datatype Places = One(place: string) | Several(places: seq<string>)

  /** `[origins] if isinstance(origins, str) else list(origins)`. */
  function PlaceList(p: Places): (r: seq<string>)
    ensures p.One? ==> r == [p.place]
    ensures p.Several? ==> r == p.places
  {
    match p
    case One(place) => [place]
    case Several(places) => places
  }

  /** The Distance Matrix service: driving seconds from an origin to a destination when leaving
      at a given instant. */
  type Matrix = (string, string, int) -> nat

  /** Minutes by origin, then destination. */
  type TravelTable = map<string, map<string, int>>

  /** `get_travel_times` as written: for a `str` or `tuple` destination the conversion line
      evaluates the undefined name `backend.pyisinstance`; the `NameError` is caught and the
      function returns `None` before the service is consulted. */
  function GetTravelTimesAsWritten(origins: Places, destinations: Places, departure: int, now: int,
                                   matrix: Matrix): (r: Option<TravelTable>)
    ensures r.None?
  {
    match destinations
    case One(_) => None
    case Several(_) => None
  }

  /** `get_travel_times` with the conversion line reading `isinstance`: a row for every origin
      and a column for every destination, each the driving time at the adjusted departure in
      whole minutes. */
  function GetTravelTimes(origins: Places, destinations: Places, departure: int, now: int,
                          matrix: Matrix): (r: TravelTable)
    ensures forall o :: o in r <==> o in PlaceList(origins)
    ensures forall o, d :: o in r ==> (d in r[o] <==> d in PlaceList(destinations))
    ensures forall o, d :: o in r && d in r[o] ==>
              var seconds := matrix(o, d, AdjustDeparture(departure, now));
              r[o][d] * 60 <= seconds < r[o][d] * 60 + 60
  {
    var leave := AdjustDeparture(departure, now);
    map o | o in PlaceList(origins) ::
      map d | d in PlaceList(destinations) :: SecondsToMinutes(matrix(o, d, leave))
  }

  /** `calculate_travel_scenario` looks up current-to-next, current-to-home and home-to-next.
      The corrected table has all three, at the minutes the service gives; the table as
      written is never there to look them up in. */
  lemma ScenarioLookups(current: string, next: string, home: string, departure: int, now: int, matrix: Matrix)
    ensures GetTravelTimesAsWritten(Several([current, home]), Several([next, home]), departure, now, matrix).None?
    ensures var t := GetTravelTimes(Several([current, home]), Several([next, home]), departure, now, matrix);
      && current in t && next in t[current] && home in t[current]
      && home in t && next in t[home]
      && t[current][next] == matrix(current, next, AdjustDeparture(departure, now)) / 60
  {
    var t := GetTravelTimes(Several([current, home]), Several([next, home]), departure, now, matrix);
    assert current in PlaceList(Several([current, home])) && home in PlaceList(Several([current, home]));
    assert next in PlaceList(Several([next, home])) && home in PlaceList(Several([next, home]));
  }

  /** The travel estimator the slot engine consults, `travel_times[str(a)][str(b)]['minutes']`
      after a call with one origin and one destination, once the table is built. */
  function TableEstimator(matrix: Matrix, now: int): TravelSlots.Estimator
  {
    (a: string, b: string, leave: int) => Some(matrix(a, b, AdjustDeparture(leave, now)) / 60)
  }

  /** The same estimator as written: `get_travel_times` returns None, so `if travel_times:`
      fails every time. */
  function AsWrittenEstimator(): TravelSlots.Estimator
  {
    (a: string, b: string, leave: int) => None
  }

  /** The estimators read the two versions of the table. */
  lemma EstimatorsReadTables(matrix: Matrix, now: int, a: string, b: string, leave: int)
    ensures AsWrittenEstimator()(a, b, leave).None?
            && GetTravelTimesAsWritten(One(a), One(b), leave, now, matrix).None?
    ensures var t := GetTravelTimes(One(a), One(b), leave, now, matrix);
      a in t && b in t[a] && TableEstimator(matrix, now)(a, b, leave) == Some(t[a][b])
  {
    assert a in PlaceList(One(a)) && b in PlaceList(One(b));
  }

  /** With the table as written the slot engine never adds travel: after an event with a
      location the earliest start is that event's bare end, and an event with a location
      ahead imposes no gap at all. */
  lemma AsWrittenEngineIgnoresTravel(prev: TravelSlots.Event, next: TravelSlots.Event, dest: string, slotEnd: int)
    requires TravelSlots.HasLocation(prev.location) && TravelSlots.HasLocation(next.location) && dest != ""
    ensures TravelSlots.EarliestStart(prev, dest, Some(AsWrittenEstimator())) == prev.end
    ensures !TravelSlots.TooLateFor(next, slotEnd, dest, Some(AsWrittenEstimator()))
  {
  }

  // ---------------------------------------------------------------------------
  // Direct or home

  /** `recommendation` with its `adjusted_start`; for home also the time spent there, in
      microseconds (the source reports it as a number of minutes). */
  datatype Scenario = Direct(adjustedStart: int) | Home(adjustedStart: int, timeAtHome: int)

  /** The decision of `calculate_travel_scenario` on the minutes it reads: go home when the gap
      is at least the direct drive plus an hour and the time left at home after both drives
      exceeds 90 minutes; otherwise drive directly.  The next job's adjusted start leaves the
      drive actually taken plus 30 minutes. */
  function TravelScenario(currentEnd: int, nextStart: int, direct: int, toHome: int, fromHome: int)
    : (r: Scenario)
    ensures r.Home? <==> nextStart - currentEnd >= (direct + 60) * Minute
                         && nextStart - currentEnd > (toHome + fromHome + 90) * Minute
    ensures r.Direct? ==> r.adjustedStart + (direct + 30) * Minute == nextStart
    ensures r.Home? ==> r.adjustedStart + (fromHome + 30) * Minute == nextStart
    ensures r.Home? ==> currentEnd + (toHome * Minute) + r.timeAtHome + (fromHome * Minute) == nextStart
  {
    var gap := nextStart - currentEnd;
    if gap < (direct + 60) * Minute then
      Direct(nextStart - (direct + 30) * Minute)
    else
      var timeAtHome := gap - (toHome + fromHome) * Minute;
      if timeAtHome > 90 * Minute then
        Home(nextStart - (fromHome + 30) * Minute, timeAtHome)
      else
        Direct(nextStart - (direct + 30) * Minute)
  }

  /** A longer gap between the same two jobs never turns a trip home into a direct drive. */
  lemma HomeStaysHomeOnLongerGap(currentEnd: int, nextStart: int, later: int,
                                 direct: int, toHome: int, fromHome: int)
    requires TravelScenario(currentEnd, nextStart, direct, toHome, fromHome).Home?
    requires nextStart <= later
    ensures TravelScenario(currentEnd, later, direct, toHome, fromHome).Home?
  {
  }

  /** Shorter drives to and from home never turn a trip home into a direct drive, and the
      time spent at home grows by exactly the minutes saved. */
  lemma HomeStaysHomeOnShorterDrives(currentEnd: int, nextStart: int, direct: int,
                                     toHome: int, fromHome: int, toHome': int, fromHome': int)
    requires TravelScenario(currentEnd, nextStart, direct, toHome, fromHome).Home?
    requires toHome' <= toHome && fromHome' <= fromHome
    ensures var before := TravelScenario(currentEnd, nextStart, direct, toHome, fromHome);
      var after := TravelScenario(currentEnd, nextStart, direct, toHome', fromHome');
      && after.Home?
      && after.timeAtHome == before.timeAtHome + ((toHome - toHome') + (fromHome - fromHome')) * Minute
  {
  }
}

=== FILE: duration_text.dfy ===
/** `_convert_time_to_minutes` of directions.py: reads a Distance Matrix duration text such as
    "25 mins", "1 hour 5 mins" or "2 hours" as a number of minutes.  Built from models of the
    Python pieces it uses: `str.lower`, `in`, `str.split()` and `int()`. */
module DurationText {
  import opened Common

  // ---------------------------------------------------------------------------
  // str.split()

  /** The characters `str.isspace` accepts, which is what `str.split()` splits on. */
  predicate IsSpace(c: char)
  {
    var n := c as int;
    || (9 <= n <= 13) || (28 <= n <= 32) || n == 0x85 || n == 0xA0 || n == 0x1680
    || (0x2000 <= n <= 0x200A) || n == 0x2028 || n == 0x2029 || n == 0x202F || n == 0x205F
    || n == 0x3000
  }

  /** A token as `split` produces it: non-empty, without whitespace. */
  predicate IsToken(w: string)
  {
    |w| > 0 && forall i :: 0 <= i < |w| ==> !IsSpace(w[i])
  }

  /** `s` without its leading whitespace. */
  function DropSpace(s: string): (r: string)
    ensures |r| <= |s|
    ensures r == [] || !IsSpace(r[0])
  {
    if |s| > 0 && IsSpace(s[0]) then DropSpace(s[1..]) else s
  }

  /** The longest prefix of `s` without whitespace. */
  function Word(s: string): (w: string)
    ensures |w| <= |s|
    ensures forall i :: 0 <= i < |w| ==> !IsSpace(w[i])
    ensures |w| < |s| ==> IsSpace(s[|w|])
    ensures |s| > 0 && !IsSpace(s[0]) ==> |w| > 0
  {
    if |s| > 0 && !IsSpace(s[0]) then [s[0]] + Word(s[1..]) else []
  }

  /** `s.split()`: the maximal runs of non-whitespace characters, in order. */
  function Split(s: string): seq<string>
    decreases |s|
  {
    var t := DropSpace(s);
    if t == [] then []
    else
      var w := Word(t);
      [w] + Split(t[|w|..])
  }

  /** Every part `split` returns is a token. */
  lemma {:induction false} SplitTokens(s: string)
    ensures forall k :: 0 <= k < |Split(s)| ==> IsToken(Split(s)[k])
    decreases |s|
  {
    var t := DropSpace(s);
    if t != [] {
      var w := Word(t);
      var rest := Split(t[|w|..]);
      SplitTokens(t[|w|..]);
      assert IsToken(w);
      assert Split(s) == [w] + rest;
      forall k | 0 <= k < |Split(s)| ensures IsToken(Split(s)[k]) {
        if k > 0 {
          assert Split(s)[k] == rest[k - 1];
        }
      }
    }
  }

  /** Tokens joined by single spaces, the partner of `Split`. */
  function Join(words: seq<string>): string
  {
    if |words| == 0 then ""
    else if |words| == 1 then words[0]
    else words[0] + " " + Join(words[1..])
  }

  lemma JoinCons(w: string, rest: seq<string>)
    requires |rest| > 0
    ensures Join([w] + rest) == w + " " + Join(rest)
  {
    assert ([w] + rest)[1..] == rest;
  }

  lemma SplitOfSpace(s: string)
    ensures Split(" " + s) == Split(s)
  {
    assert (" " + s)[1..] == s;
  }

  lemma WordOfJoined(w: string, rest: string)
    requires IsToken(w)
    ensures Word(w + " " + rest) == w
  {
    if |w| > 1 {
      assert (w + " " + rest)[1..] == w[1..] + " " + rest;
      WordOfJoined(w[1..], rest);
    } else {
      assert (w + " " + rest)[1..] == " " + rest;
    }
  }

  lemma WordOfToken(w: string)
    requires IsToken(w)
    ensures Word(w) == w
  {
    if |w| > 1 {
      assert w[1..] == w[1..];
      WordOfToken(w[1..]);
    }
  }

  lemma SplitOfToken(w: string)
    requires IsToken(w)
    ensures Split(w) == [w]
  {
    assert DropSpace(w) == w;
    WordOfToken(w);
    assert w[|w|..] == [];
  }

  lemma SplitCons(w: string, rest: string)
    requires IsToken(w)
    ensures Split(w + " " + rest) == [w] + Split(rest)
  {
    var s := w + " " + rest;
    assert DropSpace(s) == s;
    WordOfJoined(w, rest);
    assert s[|w|..] == " " + rest;
    SplitOfSpace(rest);
  }

  /** Splitting tokens joined by spaces gives the tokens back. */
  lemma {:induction false} SplitJoin(words: seq<string>)
    requires forall k :: 0 <= k < |words| ==> IsToken(words[k])
    ensures Split(Join(words)) == words
    decreases |words|
  {
    if |words| == 1 {
      SplitOfToken(words[0]);
    } else if |words| > 1 {
      var rest := Join(words[1..]);
      assert Join(words) == words[0] + " " + rest;
      SplitCons(words[0], rest);
      SplitJoin(words[1..]);
      assert Split(rest) == words[1..];
      assert [words[0]] + words[1..] == words;
    }
  }

  // ---------------------------------------------------------------------------
  // int()

  predicate IsDigit(c: char) { '0' <= c <= '9' }

  function DigitValue(c: char): (v: nat)
    requires IsDigit(c)
    ensures v < 10
  {
    (c - '0') as nat
  }

  /** `int()`'s digit string: digits, with single underscores allowed between two digits. */
  predicate WellFormedDigits(s: string)
  {
    && |s| > 0 && IsDigit(s[0]) && IsDigit(s[|s| - 1])
    && (forall i :: 0 <= i < |s| ==> IsDigit(s[i]) || s[i] == '_')
    && (forall i :: 0 <= i < |s| - 1 ==> IsDigit(s[i]) || IsDigit(s[i + 1]))
  }

  /** The decimal value of the digits of `s`, underscores skipped. */
  function DigitsValue(s: string): nat
    requires forall i :: 0 <= i < |s| ==> IsDigit(s[i]) || s[i] == '_'
  {
    if |s| == 0 then 0
    else
      var init := s[..|s| - 1];
      assert forall i :: 0 <= i < |init| ==> init[i] == s[i];
      if s[|s| - 1] == '_' then DigitsValue(init) else DigitsValue(init) * 10 + DigitValue(s[|s| - 1])
  }

  /** `int(token)` on a token without whitespace: an optional sign and a digit string.  None
      stands for the ValueError. */
  function ParseInt(token: string): (r: Option<int>)
    ensures r.Some? <==> WellFormedDigits(token)
                         || (|token| > 0 && (token[0] == '+' || token[0] == '-') && WellFormedDigits(token[1..]))
    ensures r.Some? && |token| > 0 && token[0] == '-' ==> r.value <= 0
    ensures r.Some? && |token| > 0 && token[0] != '-' ==> r.value >= 0
  {
    if |token| > 0 && (token[0] == '+' || token[0] == '-') then
      var digits := token[1..];
      if WellFormedDigits(digits) then
        var v: int := DigitsValue(digits);
        Some(if token[0] == '-' then -v else v)
      else None
    else if WellFormedDigits(token) then Some(DigitsValue(token))
    else None
  }

  /** `str(n)` for a natural number. */
  function NatToString(n: nat): (s: string)
    ensures |s| > 0
    ensures forall i :: 0 <= i < |s| ==> IsDigit(s[i])
  {
    var d := ['0' + (n % 10) as char];
    if n < 10 then d else NatToString(n / 10) + d
  }

  /** `int(str(n)) == n`. */
  lemma {:induction false} ParseNatToString(n: nat)
    ensures ParseInt(NatToString(n)) == Some(n)
  {
    var s := NatToString(n);
    assert WellFormedDigits(s);
    DigitsOfNatToString(n);
  }

  lemma {:induction false} DigitsOfNatToString(n: nat)
    ensures DigitsValue(NatToString(n)) == n
  {
    var s := NatToString(n);
    if n >= 10 {
      DigitsOfNatToString(n / 10);
      assert s[..|s| - 1] == NatToString(n / 10);
    }
  }

  // ---------------------------------------------------------------------------
  // 'hour' in time_str.lower()

  /** `str.lower` on one character, for the characters that can take part in the word "hour":
      no character outside ASCII lowers to h, o, u or r. */
  function LowerChar(c: char): char
  {
    if 'A' <= c <= 'Z' then (c as int + 32) as char else c
  }

  predicate HourAt(s: string, i: int)
    requires 0 <= i && i + 4 <= |s|
  {
    LowerChar(s[i]) == 'h' && LowerChar(s[i + 1]) == 'o' && LowerChar(s[i + 2]) == 'u' && LowerChar(s[i + 3]) == 'r'
  }

  /** `'hour' in s.lower()`. */
  predicate MentionsHour(s: string)
  {
    exists i | 0 <= i && i + 4 <= |s| :: HourAt(s, i)
  }

  /** Text whose tail starts with "hour" mentions it. */
  lemma MentionsHourIn(prefix: string, tail: string)
    requires |tail| >= 4 && tail[..4] == "hour"
    ensures MentionsHour(prefix + tail)
  {
    var s := prefix + tail;
    assert s[|prefix|] == 'h' && s[|prefix| + 1] == 'o' && s[|prefix| + 2] == 'u' && s[|prefix| + 3] == 'r';
    assert HourAt(s, |prefix|);
  }

  // ---------------------------------------------------------------------------
  // The conversion

  datatype ConvertError = NoTokens | NotANumber

  datatype Converted = Minutes(value: int) | Raises(error: ConvertError)

  /** `_convert_time_to_minutes(time_str)`: when the lowered text mentions "hour", the first
      token is the hours and the third token, read only when there are more than three tokens,
      the minutes; otherwise the first token is the minutes.  A missing or unreadable token
      raises. */
  function ConvertTimeToMinutes(text: string): (r: Converted)
    ensures var parts := Split(text);
      r.Minutes? <==> |parts| > 0 && ParseInt(parts[0]).Some?
                      && (MentionsHour(text) && |parts| > 3 ==> ParseInt(parts[2]).Some?)
    ensures var parts := Split(text);
      r.Minutes? && !MentionsHour(text) ==> r.value == ParseInt(parts[0]).value
    ensures var parts := Split(text);
      r.Minutes? && MentionsHour(text) ==>
        r.value == ParseInt(parts[0]).value * 60 + (if |parts| > 3 then ParseInt(parts[2]).value else 0)
  {
    ConvertParts(Split(text), MentionsHour(text))
  }

  /** The conversion once the text is split and the "hour" test made. */
  function ConvertParts(parts: seq<string>, hour: bool): Converted
  {
    if |parts| == 0 then Raises(NoTokens)
    else
      match ParseInt(parts[0])
      case None => Raises(NotANumber)
      case Some(first) =>
        if !hour then Minutes(first)
        else if |parts| > 3 then
          match ParseInt(parts[2])
          case None => Raises(NotANumber)
          case Some(minutes) => Minutes(first * 60 + minutes)
        else Minutes(first * 60)
  }

  /** The duration text the Distance Matrix service writes for `total` minutes, without days:
      "1 min", "25 mins", "1 hour", "2 hours 1 min", "1 hour 5 mins". */
  function DurationWords(total: nat): seq<string>
  {
    var h := total / 60;
    var m := total % 60;
    var mins := [NatToString(m), if m == 1 then "min" else "mins"];
    if h == 0 then mins
    else
      var hours := [NatToString(h), if h == 1 then "hour" else "hours"];
      if m == 0 then hours else hours + mins
  }

  function DurationPhrase(total: nat): string { Join(DurationWords(total)) }

  lemma NoHourInDigits(s: string, unit: string)
    requires forall i :: 0 <= i < |s| ==> IsDigit(s[i])
    requires unit == "min" || unit == "mins"
    ensures !MentionsHour(s + " " + unit)
  {
    var t := s + " " + unit;
    forall i | 0 <= i < |t| ensures LowerChar(t[i]) != 'h' {
      if i < |s| {
        assert IsDigit(t[i]);
      } else if i > |s| {
        assert t[i] == unit[i - |s| - 1];
      }
    }
  }

  lemma JoinStartsWith(words: seq<string>)
    requires |words| > 0
    ensures |Join(words)| >= |words[0]| && Join(words)[..|words[0]|] == words[0]
  {
    if |words| > 1 {
      JoinCons(words[0], words[1..]);
      assert [words[0]] + words[1..] == words;
    }
  }

  /** Tokens whose second word begins with "hour" read as hours and, when there are more than
      three tokens, minutes. */
  lemma HourWords(words: seq<string>, h: nat, m: nat)
    requires forall k :: 0 <= k < |words| ==> IsToken(words[k])
    requires |words| >= 2 && words[0] == NatToString(h)
    requires |words[1]| >= 4 && words[1][..4] == "hour"
    requires |words| > 3 ==> words[2] == NatToString(m)
    ensures ConvertTimeToMinutes(Join(words)) == Minutes(h * 60 + (if |words| > 3 then m else 0))
  {
    SplitJoin(words);
    ParseNatToString(h);
    ParseNatToString(m);
    SecondWordHour(words);
    assert ConvertTimeToMinutes(Join(words)) == ConvertParts(words, true);
  }

  /** Joined words whose second word begins with "hour" mention it. */
  lemma SecondWordHour(words: seq<string>)
    requires |words| >= 2 && |words[1]| >= 4 && words[1][..4] == "hour"
    ensures MentionsHour(Join(words))
  {
    var rest := Join(words[1..]);
    JoinCons(words[0], words[1..]);
    assert [words[0]] + words[1..] == words;
    JoinStartsWith(words[1..]);
    assert rest[..4] == words[1][..4];
    MentionsHourIn(words[0] + " ", rest);
  }

  /** Reading the text written for `total` minutes gives `total` back. */
  lemma DurationPhraseRoundTrip(total: nat)
    ensures ConvertTimeToMinutes(DurationPhrase(total)) == Minutes(total)
  {
    var words := DurationWords(total);
    var h := total / 60;
    var m := total % 60;
    var unit := if m == 1 then "min" else "mins";
    if h == 0 {
      MinutesTextWith(m, unit);
    } else {
      var hourWord := if h == 1 then "hour" else "hours";
      assert hourWord[..4] == "hour";
      assert forall k :: 0 <= k < |words| ==> IsToken(words[k]);
      HourWords(words, h, m);
    }
  }

  lemma MinutesTextWith(n: nat, unit: string)
    requires unit == "min" || unit == "mins"
    ensures ConvertTimeToMinutes(Join([NatToString(n), unit])) == Minutes(n)
  {
    var text := Join([NatToString(n), unit]);
    JoinCons(NatToString(n), [unit]);
    assert text == NatToString(n) + " " + unit;
    SplitJoin([NatToString(n), unit]);
    ParseNatToString(n);
    NoHourInDigits(NatToString(n), unit);
  }

  /** "N mins" reads as N. */
  lemma MinutesText(n: nat)
    ensures ConvertTimeToMinutes(NatToString(n) + " mins") == Minutes(n)
  {
    var ns := NatToString(n);
    JoinCons(ns, ["mins"]);
    assert Join([ns] + ["mins"]) == ns + " mins";
    assert [ns] + ["mins"] == [ns, "mins"];
    MinutesTextWith(n, "mins");
  }

  /** "H hours" reads as H * 60. */
  lemma HoursText(h: nat)
    ensures ConvertTimeToMinutes(NatToString(h) + " hours") == Minutes(h * 60)
  {
    var hs := NatToString(h);
    var text := hs + " hours";
    JoinCons(hs, ["hours"]);
    assert text == Join([hs, "hours"]);
    SplitJoin([hs, "hours"]);
    ParseNatToString(h);
    MentionsHourIn(hs + " ", "hours");
  }

  /** "H hour M mins" (the four tokens joined by spaces) reads as H * 60 + M. */
  lemma HourAndMinutesText(h: nat, m: nat)
    ensures ConvertTimeToMinutes(Join([NatToString(h), "hour", NatToString(m), "mins"])) == Minutes(h * 60 + m)
  {
    var words := [NatToString(h), "hour", NatToString(m), "mins"];
    assert words[1][..4] == "hour";
    assert IsToken(words[0]) && IsToken(words[1]) && IsToken(words[2]) && IsToken(words[3]);
    assert forall k :: 0 <= k < |words| ==> IsToken(words[k]) by {
      forall k | 0 <= k < |words| ensures IsToken(words[k]) {
        if k == 0 {} else if k == 1 {} else if k == 2 {} else {}
      }
    }
    HourWords(words, h, m);
  }

  /** With exactly three tokens the third is not read: "1 hour 5" is 60 minutes. */
  lemma ThreeTokensIgnoreMinutes()
    ensures ConvertTimeToMinutes("1 hour 5") == Minutes(60)
  {
    var words := ["1", "hour", "5"];
    JoinCons("hour", ["5"]);
    JoinCons("1", ["hour"] + ["5"]);
    assert words == ["1"] + (["hour"] + ["5"]);
    assert "1 hour 5" == Join(words);
    assert NatToString(1) == "1";
    assert "hour"[..4] == "hour";
    HourWords(words, 1, 0);
  }

  /** A leading token that is not a number raises instead of returning. */
  lemma NonNumericLeadingTokenRaises(word: string, tail: string)
    requires IsToken(word) && !IsDigit(word[0]) && word[0] != '+' && word[0] != '-'
    requires IsToken(tail)
    ensures ConvertTimeToMinutes(word + " " + tail).Raises?
  {
    assert word + " " + tail == Join([word, tail]);
    SplitJoin([word, tail]);
  }
}

=== FILE: grid_holds.dfy ===
/** The hold table of scheduler/services.py (`DjangoCalendarService.pending_bookings`,
    `_clean_expired_holds`, `hold_slot`).  Unlike the calendar service's table it is keyed by the
    slot's 24-hour date-and-time (`'%Y-%m-%d %H:%M'`), obtained by reading the customer's
    12-hour time (`'%I:%M %p'`), and it records the booked service's own duration. */
module GridHolds {
  import opened Common
  import opened Clock
  import opened SchedulerModels
  import PendingHolds

  /** The `'%Y-%m-%d %H:%M'` text is determined by, and determines, these three numbers. */
  datatype SlotKey = SlotKey(day: int, hour: int, minute: int)

  /** A time written on the 12-hour clock, as `'%I:%M %p'` reads and writes it. */
  datatype Clock12 = Clock12(hour: int, minute: int, pm: bool)

  predicate ValidClock12(c: Clock12) { 1 <= c.hour <= 12 && 0 <= c.minute < 60 }

  /** `%I` with `%p`: 12 AM is hour 0, 12 PM is hour 12, other PM hours add 12. */
  function To24Hour(c: Clock12): (h: int)
    requires ValidClock12(c)
    ensures 0 <= h < 24
    ensures h >= 12 <==> c.pm
    ensures h % 12 == c.hour % 12
  {
    if c.pm then (if c.hour == 12 then 12 else c.hour + 12)
    else (if c.hour == 12 then 0 else c.hour)
  }

  /** `strftime('%I:%M %p')` of hour `h`, minute `m`. */
  function To12(h: int, m: int): (c: Clock12)
    requires 0 <= h < 24 && 0 <= m < 60
    ensures ValidClock12(c) && c.minute == m
    ensures c.pm <==> h >= 12
  {
    var h12 := h % 12;
    Clock12(if h12 == 0 then 12 else h12, m, h >= 12)
  }

  /** Reading back what the 12-hour clock wrote gives the same 24-hour time. */
  lemma To24HourOfTo12(h: int, m: int)
    requires 0 <= h < 24 && 0 <= m < 60
    ensures To24Hour(To12(h, m)) == h
  {
  }

  /** Writing a valid 12-hour time after reading it gives the same text. */
  lemma To12OfTo24Hour(c: Clock12)
    requires ValidClock12(c)
    ensures To12(To24Hour(c), c.minute) == c
  {
  }

  /** The key of the slot starting at instant `t` (`start_time.strftime('%Y-%m-%d %H:%M')`). */
  function KeyOf(t: int): SlotKey { SlotKey(DayOf(t), HourOfDay(t), MinuteOfHour(t)) }

  /** The key `hold_slot` builds from a date and a 12-hour time. */
  function HoldKey(day: int, c: Clock12): SlotKey
    requires ValidClock12(c)
  {
    SlotKey(day, To24Hour(c), c.minute)
  }

  /** The 12-hour time shown for a slot starting at `t`. */
  function DisplayOf(t: int): (c: Clock12)
    ensures ValidClock12(c)
  {
    SplitDay(t);
    To12(HourOfDay(t), MinuteOfHour(t))
  }

  /** Holding the time a slot is shown with produces exactly the key its availability check
      looks up, so a hold blocks the slot it was placed on and no other. */
  lemma HoldKeyOfDisplayedSlot(t: int)
    ensures HoldKey(DayOf(t), DisplayOf(t)) == KeyOf(t)
  {
    SplitDay(t);
    To24HourOfTo12(HourOfDay(t), MinuteOfHour(t));
  }

  /** Two slot starts on whole minutes share a key only when they are the same instant. */
  lemma KeyOfInjective(t: int, u: int)
    requires t % Minute == 0 && u % Minute == 0
    requires KeyOf(t) == KeyOf(u)
    ensures t == u
  {
    SplitDay(t);
    SplitDay(u);
  }

  /** Holds are the calendar service's: an expiry and a duration, live until they expire, and
      swept by the same `PendingHolds.CleanExpired`. */
  type Hold = PendingHolds.Hold

  type Table = map<SlotKey, Hold>

  predicate Live(h: Hold, now: int) { PendingHolds.Live(h, now) }

  const HoldMinutes: int := PendingHolds.HoldMinutes

  datatype HoldOutcome = Held | Contested | InvalidTime | UnknownService

  datatype HoldResult = HoldResult(outcome: HoldOutcome, table: Table)

  /** `hold_slot(date, time, service_id)`: sweep expired holds, read the 12-hour time (an
      unreadable time raises), refuse a slot that is still held, look the service up (an unknown
      id raises), then hold the slot for five minutes with the service's duration.  The sweep
      has already happened when any of the later steps fails. */
  function HoldSlot(table: Table, day: int, time: Clock12, services: map<int, Service>, serviceId: int, now: int)
    : (r: HoldResult)
    ensures forall k :: k in r.table && (!ValidClock12(time) || k != HoldKey(day, time)) ==>
              k in table && r.table[k] == table[k]
    ensures forall k :: (!ValidClock12(time) || k != HoldKey(day, time)) ==>
              (k in r.table <==> k in table && Live(table[k], now))
    ensures forall k :: k in table && Live(table[k], now) ==> k in r.table
    ensures ValidClock12(time) && r.outcome == Contested ==>
              var key := HoldKey(day, time);
              key in table && key in r.table && r.table[key] == table[key]
    ensures r.outcome == InvalidTime <==> !ValidClock12(time)
    ensures ValidClock12(time) ==>
              var key := HoldKey(day, time);
              && (r.outcome == Contested <==> key in table && Live(table[key], now))
              && (r.outcome == UnknownService <==> !(key in table && Live(table[key], now)) && serviceId !in services)
              && (r.outcome == Held <==> !(key in table && Live(table[key], now)) && serviceId in services)
              && (r.outcome == Held ==>
                    key in r.table && r.table[key] == PendingHolds.Hold(now + HoldMinutes * Minute, services[serviceId].duration))
              && (r.outcome != Held ==> forall k :: k in r.table ==> Live(r.table[k], now))
              && (r.outcome == UnknownService ==> key !in r.table)
    ensures r.outcome != Held ==> r.table == PendingHolds.CleanExpired(table, now)
  {
    var swept := PendingHolds.CleanExpired(table, now);
    if !ValidClock12(time) then
      HoldResult(InvalidTime, swept)
    else
      var key := HoldKey(day, time);
      if key in swept then
        HoldResult(Contested, swept)
      else if serviceId !in services then
        HoldResult(UnknownService, swept)
      else
        HoldResult(Held, swept[key := PendingHolds.Hold(now + HoldMinutes * Minute, services[serviceId].duration)])
  }

  /** Mutual exclusion: after a successful hold, any request for the same date and 12-hour time
      within five minutes is refused. */
  lemma HoldIsExclusive(table: Table, day: int, time: Clock12, services: map<int, Service>,
                        s1: int, s2: int, now: int, later: int)
    requires HoldSlot(table, day, time, services, s1, now).outcome == Held
    requires now <= later <= now + HoldMinutes * Minute
    ensures HoldSlot(HoldSlot(table, day, time, services, s1, now).table, day, time, services, s2, later).outcome
            == Contested
  {
  }
}

=== FILE: grid_slots.dfy ===
/** The 30-minute grid engine of scheduler/services.py (`DjangoCalendarService`): the weekday's
    business hours bound the day, today's search starts at the next half-hour mark after now,
    and every 30-minute step whose slot fits before closing is offered when
    `_is_slot_available` says so. */
module GridSlots {
  import opened Common
  import opened Clock
  import opened SchedulerModels
  import opened GridHolds

  const GridMinutes: int := 30

  // ---------------------------------------------------------------------------
  // Business hours

  /** The records for weekday `w` that are not closed, in order. */
  function OpenRecords(records: seq<HoursRecord>, w: int): (r: seq<HoursRecord>)
    ensures forall h :: h in r <==> h in records && h.dayOfWeek == w && !h.isClosed
    ensures forall h :: multiset(r)[h] == if h.dayOfWeek == w && !h.isClosed then multiset(records)[h] else 0
    ensures |r| <= |records|
  {
    if |records| == 0 then []
    else
      var rest := OpenRecords(records[1..], w);
      var h := records[0];
      assert records == [h] + records[1..];
      assert multiset(records) == multiset{h} + multiset(records[1..]);
      assert forall x :: x in records <==> x == h || x in records[1..];
      if h.dayOfWeek == w && !h.isClosed then [h] + rest else rest
  }

  datatype HoursLookup = NoHours | Found(hours: HoursRecord) | Ambiguous

  /** `get_business_hours`: the single non-closed record for the date's weekday; none gives no
      hours, and several make the ORM's `get` raise. */
  function BusinessHoursFor(records: seq<HoursRecord>, day: int): (r: HoursLookup)
    ensures r.NoHours? <==> forall h :: h in records ==> h.dayOfWeek != Weekday(day) || h.isClosed
    ensures r.Found? ==> r.hours in records && r.hours.dayOfWeek == Weekday(day) && !r.hours.isClosed
    ensures r.Found? ==> forall h :: h in records && h.dayOfWeek == Weekday(day) && !h.isClosed ==> h == r.hours
    ensures r.Found? <==> |OpenRecords(records, Weekday(day))| == 1
    ensures r.Ambiguous? <==> |OpenRecords(records, Weekday(day))| >= 2
  {
    var open := OpenRecords(records, Weekday(day));
    if |open| == 0 then NoHours
    else if |open| == 1 then
      assert open[0] in open;
      Found(open[0])
    else
      assert open[0] in open;
      Ambiguous
  }

  // ---------------------------------------------------------------------------
  // Rounding `now`

  datatype Rounded = Rounded(at: int) | MinuteOutOfRange

  /** `_round_up_to_next_slot` as written: the minute is rounded up to a multiple of 30 and
      seconds are dropped; a result not after `now` moves on 30 minutes.  Minutes 31 to 59 round
      to 60, which `datetime.replace` rejects. */
  function RoundUpToNextSlot(now: int): (r: Rounded)
    ensures r.Rounded? <==> MinuteOfHour(now) <= 30
    ensures r.Rounded? ==> now < r.at <= now + GridMinutes * Minute
    ensures r.Rounded? ==> r.at % Minute == 0 && (MinuteOfHour(r.at) == 0 || MinuteOfHour(r.at) == 30)
  {
    var m := MinuteOfHour(now);
    var minutes := if m % 30 != 0 then ((m + 29) / 30) * 30 else m;
    Split(now);
    if minutes >= 60 then MinuteOutOfRange
    else
      var h := now / Hour;
      var rounded := h * Hour + minutes * Minute;
      Compose(h, minutes, 0);
      if rounded <= now then
        if minutes == 0 then
          Compose(h, 30, 0);
          Rounded(rounded + GridMinutes * Minute)
        else
          Compose(h + 1, 0, 0);
          Rounded(rounded + GridMinutes * Minute)
      else
        Rounded(rounded)
  }

  /** The source fails for every request made in the second half of an hour. */
  lemma RoundUpFailsAfterHalfHour(now: int)
    requires MinuteOfHour(now) > 30
    ensures RoundUpToNextSlot(now) == MinuteOutOfRange
  {
  }

  /** The evidently intended rounding: the first half-hour mark strictly after `now`. */
  function NextHalfHour(now: int): (r: int)
    ensures now < r <= now + GridMinutes * Minute
    ensures r % (GridMinutes * Minute) == 0
    ensures r % Minute == 0 && (MinuteOfHour(r) == 0 || MinuteOfHour(r) == 30)
  {
    var q := now / (GridMinutes * Minute);
    var r := (q + 1) * (GridMinutes * Minute);
    DivMod(r, GridMinutes * Minute, q + 1, 0);
    assert r == (q + 1) * 30 * Minute;
    assert r == ((q + 1) / 2) * Hour + ((q + 1) % 2) * 30 * Minute;
    Compose((q + 1) / 2, ((q + 1) % 2) * 30, 0);
    r
  }

  /** Wherever the source's rounding succeeds it agrees with the intended one. */
  lemma RoundUpToNextSlotAgrees(now: int)
    requires RoundUpToNextSlot(now).Rounded?
    ensures RoundUpToNextSlot(now).at == NextHalfHour(now)
  {
    var r := RoundUpToNextSlot(now).at;
    var s := NextHalfHour(now);
    var slot := GridMinutes * Minute;
    Split(r);
    var a := (r / Hour) * 2 + MinuteOfHour(r) / 30;
    assert r == a * slot;
    var b := now / slot + 1;
    assert s == b * slot;
    // Two multiples of 30 minutes in the half-open window (now, now + 30 min] coincide.
    assert (a - b) * slot == r - s;
    MultipleSize(a - b, slot);
  }

  // ---------------------------------------------------------------------------
  // Availability

  /** `_is_slot_available`: no pending or confirmed booking of the business overlaps the
      half-open slot, the calendar reports no event in it, and its key is not in the hold table.
      The hold table is read as is: an expired hold that no sweep removed still blocks. */
  function IsSlotAvailable(bookings: seq<Booking>, business: int, holds: Table,
                           calendarBusy: (int, int) -> bool, start: int, duration: int): (r: bool)
    ensures r <==>
              && (forall i :: 0 <= i < |bookings| && bookings[i].business == business && Blocks(bookings[i].status) ==>
                    bookings[i].end <= start || start + duration * Minute <= bookings[i].start)
              && !calendarBusy(start, start + duration * Minute)
              && KeyOf(start) !in holds
  {
    var end := start + duration * Minute;
    && !(exists i | 0 <= i < |bookings| ::
           bookings[i].business == business && bookings[i].start < end && bookings[i].end > start
           && Blocks(bookings[i].status))
    && !calendarBusy(start, end)
    && KeyOf(start) !in holds
  }

  /** Adding a cancelled or completed booking, or any booking of another business, never
      changes availability. */
  lemma InactiveBookingsNeverBlock(bookings: seq<Booking>, b: Booking, business: int, holds: Table,
                                   calendarBusy: (int, int) -> bool, start: int, duration: int)
    requires !Blocks(b.status) || b.business != business
    ensures IsSlotAvailable(bookings + [b], business, holds, calendarBusy, start, duration)
            == IsSlotAvailable(bookings, business, holds, calendarBusy, start, duration)
  {
    var s := bookings + [b];
    assert forall i :: 0 <= i < |bookings| ==> s[i] == bookings[i];
  }

  /** A booking that ends exactly when the slot starts, or starts exactly when it ends, does
      not block it. */
  lemma TouchingBookingsNeverBlock(bookings: seq<Booking>, b: Booking, business: int, holds: Table,
                                   calendarBusy: (int, int) -> bool, start: int, duration: int)
    requires b.end == start || b.start == start + duration * Minute
    ensures IsSlotAvailable(bookings + [b], business, holds, calendarBusy, start, duration)
            == IsSlotAvailable(bookings, business, holds, calendarBusy, start, duration)
  {
    var s := bookings + [b];
    assert forall i :: 0 <= i < |bookings| ==> s[i] == bookings[i];
  }

  /** A blocking booking that overlaps the slot makes it unavailable. */
  lemma OverlappingBookingBlocks(bookings: seq<Booking>, i: int, business: int, holds: Table,
                                 calendarBusy: (int, int) -> bool, start: int, duration: int)
    requires 0 <= i < |bookings| && bookings[i].business == business && Blocks(bookings[i].status)
    requires bookings[i].start < start + duration * Minute && start < bookings[i].end
    ensures !IsSlotAvailable(bookings, business, holds, calendarBusy, start, duration)
  {
  }

  // ---------------------------------------------------------------------------
  // The grid

  /** The `n`-th grid point after `first`. */
  function GridPoint(first: int, n: nat): int { first + n * (GridMinutes * Minute) }

  /** The loop of `get_available_slots`: from `first`, every 30 minutes while the slot still
      ends by `close`, keep the starts `available` accepts.  The result is exactly the
      available grid points that fit, in increasing order. */
  method GridScan(first: int, close: int, duration: int, available: int -> bool) returns (starts: seq<int>)
    ensures forall k :: 0 <= k < |starts| ==>
              (exists n: nat :: starts[k] == GridPoint(first, n))
              && starts[k] + duration * Minute <= close && available(starts[k])
    ensures forall n: nat :: GridPoint(first, n) + duration * Minute <= close && available(GridPoint(first, n)) ==>
              GridPoint(first, n) in starts
    ensures forall k, l :: 0 <= k < l < |starts| ==> starts[k] < starts[l]
  {
    var t := first;
    ghost var n: nat := 0;
    starts := [];
    while t + duration * Minute <= close
      invariant t == GridPoint(first, n)
      invariant forall k :: 0 <= k < |starts| ==>
                  (exists j: nat :: starts[k] == GridPoint(first, j))
                  && starts[k] + duration * Minute <= close && available(starts[k]) && starts[k] < t
      invariant forall j: nat ::
                  (j < n && GridPoint(first, j) + duration * Minute <= close && available(GridPoint(first, j)))
                  ==> GridPoint(first, j) in starts
      invariant forall k, l :: 0 <= k < l < |starts| ==> starts[k] < starts[l]
      decreases close - duration * Minute - t + GridMinutes * Minute
    {
      if available(t) {
        starts := starts + [t];
      }
      t := t + GridMinutes * Minute;
      n := n + 1;
    }
  }

  datatype SlotsError = ServiceNotFound | MultipleBusinessHours | RoundingFailed

  datatype SlotsResult = Slots(starts: seq<int>) | Failed(error: SlotsError)

  /** `Service.objects.get(id=service_id, business=self.business)` finds the service. */
  predicate ServiceOf(services: map<int, Service>, serviceId: int, business: int)
  {
    serviceId in services && services[serviceId].business == business
  }

  /** Where the scan starts: the opening time, or for today the later of it and the next
      half-hour mark after now. */
  function ScanStart(hours: HoursRecord, day: int, now: int): int
  {
    var open := day * Day + hours.open;
    if DayOf(now) == day then Max(open, NextHalfHour(now)) else open
  }

  /** `get_available_slots(date, service_id)` for `business`: the service must belong to the
      business; no open hours give no slots, several raise; for today the start moves to the
      rounded current time (which raises in the second half of an hour), and a start at or after
      closing gives no slots; then the grid is scanned from the start.  The result is exactly
      the available grid points whose slot fits before closing. */
  method GetAvailableSlots(business: int, services: map<int, Service>, serviceId: int,
                           records: seq<HoursRecord>, bookings: seq<Booking>, holds: Table,
                           calendarBusy: (int, int) -> bool, day: int, now: int)
    returns (r: SlotsResult)
    ensures r == Failed(ServiceNotFound) <==> !ServiceOf(services, serviceId, business)
    ensures r == Failed(MultipleBusinessHours) <==>
              ServiceOf(services, serviceId, business) && BusinessHoursFor(records, day).Ambiguous?
    ensures r == Failed(RoundingFailed) <==>
              && ServiceOf(services, serviceId, business) && BusinessHoursFor(records, day).Found?
              && DayOf(now) == day && MinuteOfHour(now) > 30
    ensures ServiceOf(services, serviceId, business) && BusinessHoursFor(records, day).NoHours? ==>
              r == Slots([])
    ensures r.Slots? && r.starts != [] ==>
              ServiceOf(services, serviceId, business) && BusinessHoursFor(records, day).Found?
    ensures r.Slots? && r.starts != [] ==>
              var hours := BusinessHoursFor(records, day).hours;
              var duration := services[serviceId].duration;
              var start := ScanStart(hours, day, now);
              forall k :: 0 <= k < |r.starts| ==>
                && (exists n: nat :: r.starts[k] == GridPoint(start, n))
                && day * Day + hours.open <= r.starts[k]
                && r.starts[k] + duration * Minute <= day * Day + hours.close
                && (DayOf(now) == day ==> now < r.starts[k])
                && IsSlotAvailable(bookings, business, holds, calendarBusy, r.starts[k], duration)
    ensures r.Slots? && ServiceOf(services, serviceId, business) && BusinessHoursFor(records, day).Found? ==>
              var hours := BusinessHoursFor(records, day).hours;
              var duration := services[serviceId].duration;
              var close := day * Day + hours.close;
              (DayOf(now) == day && ScanStart(hours, day, now) >= close)
              || forall n: nat ::
                   var t := GridPoint(ScanStart(hours, day, now), n);
                   t + duration * Minute <= close && IsSlotAvailable(bookings, business, holds, calendarBusy, t, duration)
                   ==> t in r.starts
    ensures r.Slots? && ServiceOf(services, serviceId, business) && BusinessHoursFor(records, day).Found?
            && DayOf(now) == day && ScanStart(BusinessHoursFor(records, day).hours, day, now)
                                    >= day * Day + BusinessHoursFor(records, day).hours.close ==>
              r.starts == []
    ensures r.Slots? ==> forall k, l :: 0 <= k < l < |r.starts| ==> r.starts[k] < r.starts[l]
  {
    if !ServiceOf(services, serviceId, business) {
      return Failed(ServiceNotFound);
    }
    var service := services[serviceId];
    var lookup := BusinessHoursFor(records, day);
    if lookup.NoHours? {
      return Slots([]);
    }
    if lookup.Ambiguous? {
      return Failed(MultipleBusinessHours);
    }
    var hours := lookup.hours;
    var current := day * Day + hours.open;
    var close := day * Day + hours.close;
    if DayOf(now) == day {
      var rounded := RoundUpToNextSlot(now);
      if rounded.MinuteOutOfRange? {
        return Failed(RoundingFailed);
      }
      RoundUpToNextSlotAgrees(now);
      current := Max(current, rounded.at);
      if current >= close {
        return Slots([]);
      }
    }
    assert current == ScanStart(hours, day, now);
    var starts := GridScan(current, close, service.duration,
                           t => IsSlotAvailable(bookings, business, holds, calendarBusy, t, service.duration));
    forall k | 0 <= k < |starts| ensures current <= starts[k] {
      var n: nat :| starts[k] == GridPoint(current, n);
    }
    r := Slots(starts);
  }
}

=== FILE: pending_holds.dfy ===
/** The hold table of getcalendar.py (`CalendarService.pending_bookings`, `_clean_expired_pending`,
    `hold_slot`) and the key removal of its `/api/release-hold` route.  The table maps the text
    key "<date> <time>" to an expiry instant and a duration; holds last five minutes. */
module PendingHolds {
  import opened Common
  import opened Clock

  const HoldMinutes: int := 5

  datatype Hold = Hold(expires: int, durationMinutes: int)

  type Table = map<string, Hold>

  /** The table key `f"{date_str} {time_str}"`. */
  function SlotKey(date: string, time: string): string { date + " " + time }

  /** A hold is live at `now` unless it expired strictly before `now`. */
  predicate Live(h: Hold, now: int) { !(h.expires < now) }

  /** The sweep of both services' hold tables (`_clean_expired_pending` here,
      `_clean_expired_holds` in scheduler/services.py): drops exactly the holds that expired
      strictly before `now`, whatever the key. */
  function CleanExpired<K>(table: map<K, Hold>, now: int): (r: map<K, Hold>)
    ensures r.Keys <= table.Keys
    ensures forall k :: k in r ==> r[k] == table[k] && Live(r[k], now)
    ensures forall k :: k in table && Live(table[k], now) ==> k in r
  {
    map k | k in table && Live(table[k], now) :: table[k]
  }

  /** Sweeping twice at the same instant removes nothing more. */
  lemma CleanExpiredIdempotent<K>(table: map<K, Hold>, now: int)
    ensures CleanExpired(CleanExpired(table, now), now) == CleanExpired(table, now)
  {
  }

  /** A later sweep keeps no more than an earlier one. */
  lemma CleanExpiredMonotone<K>(table: map<K, Hold>, now: int, later: int)
    requires now <= later
    ensures CleanExpired(table, later).Keys <= CleanExpired(table, now).Keys
  {
  }

  /** Minutes a hold records: 120 for 'Premium Detail', 60 for every other service name. */
  function HoldDuration(serviceType: string): (d: nat)
    ensures serviceType == "Premium Detail" ==> d == 120
    ensures serviceType != "Premium Detail" ==> d == 60
  {
    if serviceType == "Premium Detail" then 120 else 60
  }

  datatype HoldOutcome = Held | Contested

  datatype HoldResult = HoldResult(outcome: HoldOutcome, table: Table)

  /** `hold_slot`: sweep, then refuse when the key is still held, else hold it for five minutes.
      The sweep happens before the check, so even a refused request leaves the table swept. */
  function HoldSlot(table: Table, date: string, time: string, serviceType: string, now: int): (r: HoldResult)
    ensures var key := SlotKey(date, time);
      r.outcome == Contested <==> key in table && Live(table[key], now)
    ensures var key := SlotKey(date, time);
      forall k :: k != key ==> (k in r.table <==> k in table && Live(table[k], now))
    ensures forall k :: k in r.table && k != SlotKey(date, time) ==> r.table[k] == table[k]
    ensures var key := SlotKey(date, time);
      key in r.table && (r.outcome == Held ==> r.table[key] == Hold(now + HoldMinutes * Minute, HoldDuration(serviceType)))
    ensures var key := SlotKey(date, time);
      r.outcome == Contested ==> r.table[key] == table[key]
  {
    var swept := CleanExpired(table, now);
    var key := SlotKey(date, time);
    if key in swept then
      HoldResult(Contested, swept)
    else
      HoldResult(Held, swept[key := Hold(now + HoldMinutes * Minute, HoldDuration(serviceType))])
  }

  /** Mutual exclusion: once a hold succeeds, every request for the same slot within its five
      minutes is refused, whatever service it names. */
  lemma HoldIsExclusive(table: Table, date: string, time: string, s1: string, s2: string, now: int, later: int)
    requires HoldSlot(table, date, time, s1, now).outcome == Held
    requires now <= later <= now + HoldMinutes * Minute
    ensures HoldSlot(HoldSlot(table, date, time, s1, now).table, date, time, s2, later).outcome == Contested
  {
  }

  /** A hold stops blocking once it has expired: the next request after expiry succeeds. */
  lemma HoldLapses(table: Table, date: string, time: string, s1: string, s2: string, now: int, later: int)
    requires HoldSlot(table, date, time, s1, now).outcome == Held
    requires later > now + HoldMinutes * Minute
    ensures HoldSlot(HoldSlot(table, date, time, s1, now).table, date, time, s2, later).outcome == Held
  {
  }

  datatype ReleaseOutcome = Released | NoHoldFound | MissingDateOrTime

  datatype ReleaseResult = ReleaseResult(outcome: ReleaseOutcome, table: Table)

  /** The `/api/release-hold` route: a request without a date or a time is refused and changes
      nothing; otherwise the key is removed if present, and the route means to report success
      either way.  It does not sweep expired holds. */
  function ReleaseHold(table: Table, date: Option<string>, time: Option<string>): (r: ReleaseResult)
    ensures r.outcome == MissingDateOrTime <==> date.None? || time.None?
    ensures r.outcome == MissingDateOrTime ==> r.table == table
    ensures date.Some? && time.Some? ==>
              && SlotKey(date.value, time.value) !in r.table
              && (r.outcome == Released <==> SlotKey(date.value, time.value) in table)
              && forall k :: k != SlotKey(date.value, time.value) ==>
                   (k in r.table <==> k in table) && (k in table ==> r.table[k] == table[k])
  {
    if date.None? || time.None? then
      ReleaseResult(MissingDateOrTime, table)
    else
      var key := SlotKey(date.value, time.value);
      if key in table then ReleaseResult(Released, table - {key})
      else ReleaseResult(NoHoldFound, table)
  }

  /** Releasing is idempotent: a second release reports that no hold was found and changes
      nothing. */
  lemma ReleaseIsIdempotent(table: Table, date: string, time: string)
    ensures var once := ReleaseHold(table, Some(date), Some(time));
      ReleaseHold(once.table, Some(date), Some(time)) == ReleaseResult(NoHoldFound, once.table)
  {
  }

  /** Hold, release, hold again: after the release the slot can be held again. */
  lemma HoldReleaseHold(table: Table, date: string, time: string, s1: string, s2: string, now: int, later: int)
    requires HoldSlot(table, date, time, s1, now).outcome == Held
    ensures var held := HoldSlot(table, date, time, s1, now).table;
      var released := ReleaseHold(held, Some(date), Some(time));
      released.outcome == Released && HoldSlot(released.table, date, time, s2, later).outcome == Held
  {
  }
}

=== FILE: scheduler_models.dfy ===
/** The records the 30-minute grid engine of scheduler/services.py reads: bookings, services and
    weekly business hours.  Instants and times of day are in Clock's microsecond ticks. */
module SchedulerModels {

  datatype Status = Pending | Confirmed | Cancelled | Completed

  /** Only pending and confirmed bookings occupy time; cancelled and completed ones never block. */
  predicate Blocks(s: Status) { s == Pending || s == Confirmed }

  datatype Booking = Booking(business: int, start: int, end: int, status: Status)

  /** A service of a business; `duration` is in minutes (an integer field in the source). */
  datatype Service = Service(business: int, duration: int)

  /** Opening hours of one business for one weekday (Monday is 0); `open` and `close` are times
      of day. */
  datatype HoursRecord = HoursRecord(dayOfWeek: int, open: int, close: int, isClosed: bool)
}

=== FILE: travel_slots.dfy ===
/** The travel-aware slot engine of getcalendar.py (`CalendarService._calculate_available_slots`
    and the request path that feeds it).  A cursor walks one business day; each candidate
    `[t, t + duration)` is rejected when it overlaps a calendar event, when it starts before
    the previous event's end plus buffer (plus travel from there), or when it would reach the
    next event too late; the cursor then jumps, and otherwise steps 10 minutes. */
module TravelSlots {
  import opened Common
  import opened Clock

  /** Business hours of the calendar service; the source's comments say 9 and 17 but the values are 1 and 22. */
  const OpenHour: int := 1
  const CloseHour: int := 22
  const BufferMinutes: int := 15
  const StepMinutes: int := 10

  /** A calendar event of the day, in the start order the calendar API returns. */
  datatype Event = Event(id: string, start: int, end: int, location: Option<string>)

  /** An offered slot; the source renders both ends as 12-hour clock text. */
  datatype Slot = Slot(start: int, end: int)

  /** Travel-time estimator: minutes from origin to destination leaving at the given instant,
      or None when it has no data. */
  type Estimator = (string, string, int) -> Option<nat>

  /** A location counts only when it is a non-empty string (Python truthiness). */
  predicate HasLocation(loc: Option<string>) { loc.Some? && loc.value != "" }

  /** The estimator is consulted only when the event has a location, a destination address
      was given and an estimator exists. */
  predicate Consults(loc: Option<string>, dest: string, travel: Option<Estimator>)
  {
    HasLocation(loc) && dest != "" && travel.Some?
  }

  function DayStart(day: int): int { At(day, OpenHour, 0) }
  function DayEnd(day: int): int { At(day, CloseHour, 0) }

  /** `round_up_to_10`: the minute is rounded up to a multiple of ten, minute 60 carrying into
      the next hour; seconds and microseconds are kept. */
  function RoundUpTo10(t: int): (r: int)
    ensures t <= r < t + 10 * Minute
    ensures r % Minute == t % Minute
    ensures MinuteOfHour(r) % 10 == 0
  {
    var h := t / Hour;
    var m := MinuteOfHour(t);
    var rest := t % Minute;
    var rounded := ((m + 9) / 10) * 10;
    Split(t);
    if rounded == 60 then
      Compose(h + 1, 0, rest);
      (h + 1) * Hour + rest
    else
      Compose(h, rounded, rest);
      h * Hour + rounded * Minute + rest
  }

  /** Rounding up is idempotent: a time already on a 10-minute mark is left alone. */
  lemma RoundUpTo10Idempotent(t: int)
    ensures RoundUpTo10(RoundUpTo10(t)) == RoundUpTo10(t)
  {
    var r := RoundUpTo10(t);
    Split(r);
    var h := r / Hour;
    var m := MinuteOfHour(r);
    assert ((m + 9) / 10) * 10 == m;
    Compose(h, m, r % Minute);
  }

  /** The first candidate start: opening time, or for today the current time (if later)
      rounded up to a 10-minute mark. */
  function FirstCandidate(day: int, now: int): (r: int)
    ensures DayStart(day) <= r
    ensures DayOf(now) == day ==> now <= r < Max(DayStart(day), now) + 10 * Minute
    ensures DayOf(now) == day ==>
              MinuteOfHour(r) % 10 == 0 && r % Minute == Max(DayStart(day), now) % Minute
    ensures DayOf(now) != day ==> r == DayStart(day)
  {
    if DayOf(now) == day then RoundUpTo10(Max(DayStart(day), now)) else DayStart(day)
  }

  /** The half-open overlap test of the source: `ev.start < slot_end and ev.end > slot_start`. */
  predicate Overlaps(e: Event, s: int, end: int) { e.start < end && e.end > s }

  predicate AnyOverlap(events: seq<Event>, s: int, end: int)
  {
    exists i | 0 <= i < |events| :: Overlaps(events[i], s, end)
  }

  /** The latest end among the events overlapping `[s, end)`: where the cursor jumps on overlap. */
  function MaxOverlapEnd(events: seq<Event>, s: int, end: int): (r: int)
    requires AnyOverlap(events, s, end)
    ensures exists i :: 0 <= i < |events| && Overlaps(events[i], s, end) && r == events[i].end
    ensures forall i :: 0 <= i < |events| && Overlaps(events[i], s, end) ==> events[i].end <= r
    ensures s < r
    decreases |events|
  {
    var n := |events| - 1;
    var rest := events[..n];
    if !AnyOverlap(rest, s, end) then
      assert forall i :: 0 <= i < n ==> events[i] == rest[i];
      events[n].end
    else
      var m := MaxOverlapEnd(rest, s, end);
      assert forall i :: 0 <= i < n ==> events[i] == rest[i];
      if Overlaps(events[n], s, end) then Max(events[n].end, m) else m
  }

  /** `previous_booking`: the last event ending at or before the slot start, with or without a location. */
  function PreviousIndex(events: seq<Event>, t: int): Option<nat>
  {
    LastWhere(events, (e: Event) => e.end <= t)
  }

  /** `next_booking`: the first event starting at or after the slot end. */
  function NextIndex(events: seq<Event>, slotEnd: int): Option<nat>
  {
    FirstWhere(events, (e: Event) => e.start >= slotEnd)
  }

  /** Earliest start the previous event allows (`earliest_possible`). */
  function EarliestStart(prev: Event, dest: string, travel: Option<Estimator>): (r: int)
    ensures prev.end <= r
    ensures !Consults(prev.location, dest, travel) ==>
              && prev.end + BufferMinutes * Minute <= r < prev.end + (BufferMinutes + 10) * Minute
              && MinuteOfHour(r) % 10 == 0 && r % Minute == (prev.end + BufferMinutes * Minute) % Minute
    ensures Consults(prev.location, dest, travel) ==>
              match travel.value(prev.location.value, dest, prev.end)
              case None => r == prev.end
              case Some(m) =>
                && prev.end + (m + BufferMinutes) * Minute <= r < prev.end + (m + BufferMinutes + 10) * Minute
                && MinuteOfHour(r) % 10 == 0 && r % Minute == (prev.end + (m + BufferMinutes) * Minute) % Minute
  {
    if Consults(prev.location, dest, travel) then
      match travel.value(prev.location.value, dest, prev.end)
      case Some(m) => RoundUpTo10(prev.end + (m + BufferMinutes) * Minute)
      case None => prev.end
    else
      RoundUpTo10(prev.end + BufferMinutes * Minute)
  }

  /** True when a slot ending at `slotEnd` leaves too little time before `next`
      (the source's `arrival_time > next_start` / `buffer_end > next_start`). */
  predicate TooLateFor(next: Event, slotEnd: int, dest: string, travel: Option<Estimator>)
  {
    if Consults(next.location, dest, travel) then
      match travel.value(dest, next.location.value, slotEnd)
      case Some(m) => slotEnd + (m + BufferMinutes) * Minute > next.start
      case None => false
    else
      slotEnd + BufferMinutes * Minute > next.start
  }

  /** The outcome of evaluating one candidate start, with the cursor value each rejection sets. */
  datatype Verdict =
    | Accept
    | Overlap(jumpTo: int)
    | TooEarly(earliest: int)
    | TooLate(nextStart: int)

  /** One pass of the loop body, before the final `+= 10`. */
  function Evaluate(events: seq<Event>, t: int, duration: nat, dest: string, travel: Option<Estimator>): Verdict
  {
    var slotEnd := t + duration * Minute;
    if AnyOverlap(events, t, slotEnd) then
      Overlap(MaxOverlapEnd(events, t, slotEnd))
    else
      var prevOk :=
        match PreviousIndex(events, t)
        case None => true
        case Some(i) => EarliestStart(events[i], dest, travel) <= t;
      if !prevOk then
        TooEarly(EarliestStart(events[PreviousIndex(events, t).value], dest, travel))
      else
        match NextIndex(events, slotEnd)
        case None => Accept
        case Some(j) => if TooLateFor(events[j], slotEnd, dest, travel) then TooLate(events[j].start) else Accept
  }

  /** The next cursor value: an overlap jumps straight to the latest overlapping end (`continue`);
      every other outcome falls through to `+= 10`, including the two rejections. */
  function NextCursor(t: int, v: Verdict): int
  {
    match v
    case Overlap(r) => r
    case TooEarly(b) => b + StepMinutes * Minute
    case TooLate(n) => n + StepMinutes * Minute
    case Accept => t + StepMinutes * Minute
  }

  /** The cursor after evaluating `t`; it always moves strictly forward, so the loop terminates. */
  function Advance(events: seq<Event>, t: int, duration: nat, dest: string, travel: Option<Estimator>): (r: int)
    ensures t < r
  {
    var v := Evaluate(events, t, duration, dest, travel);
    if v.TooLate? then
      var j := NextIndex(events, t + duration * Minute).value;
      assert events[j].start >= t + duration * Minute;
      NextCursor(t, v)
    else
      NextCursor(t, v)
  }

  // ---------------------------------------------------------------------------
  // Declarative statement of what an accepted slot satisfies

  /** Event `i` is the last one (in list order) ending at or before `t`. */
  ghost predicate IsPrevious(events: seq<Event>, i: int, t: int)
  {
    0 <= i < |events| && events[i].end <= t && forall k :: i < k < |events| ==> t < events[k].end
  }

  /** Event `j` is the first one (in list order) starting at or after `slotEnd`. */
  ghost predicate IsNext(events: seq<Event>, j: int, slotEnd: int)
  {
    0 <= j < |events| && slotEnd <= events[j].start && forall k :: 0 <= k < j ==> events[k].start < slotEnd
  }

  /** A start is feasible when its slot meets no event, it is not earlier than the previous
      event allows, and the next event can still be reached. */
  ghost predicate Feasible(events: seq<Event>, t: int, duration: nat, dest: string, travel: Option<Estimator>)
  {
    var slotEnd := t + duration * Minute;
    && (forall i :: 0 <= i < |events| ==> !Overlaps(events[i], t, slotEnd))
    && (forall i :: IsPrevious(events, i, t) ==> EarliestStart(events[i], dest, travel) <= t)
    && (forall j :: IsNext(events, j, slotEnd) ==> !TooLateFor(events[j], slotEnd, dest, travel))
  }

  lemma PreviousIndexIsPrevious(events: seq<Event>, t: int)
    ensures PreviousIndex(events, t).Some? ==> IsPrevious(events, PreviousIndex(events, t).value, t)
    ensures forall i :: IsPrevious(events, i, t) ==> PreviousIndex(events, t) == Some(i)
  {
    var p := (e: Event) => e.end <= t;
    var r := LastWhere(events, p);
    forall i | IsPrevious(events, i, t) ensures r == Some(i) {
      assert p(events[i]);
    }
  }

  lemma NextIndexIsNext(events: seq<Event>, slotEnd: int)
    ensures NextIndex(events, slotEnd).Some? ==> IsNext(events, NextIndex(events, slotEnd).value, slotEnd)
    ensures forall j :: IsNext(events, j, slotEnd) ==> NextIndex(events, slotEnd) == Some(j)
  {
    var p := (e: Event) => e.start >= slotEnd;
    var r := FirstWhere(events, p);
    forall j | IsNext(events, j, slotEnd) ensures r == Some(j) {
      assert p(events[j]);
    }
  }

  /** The loop body accepts exactly the feasible starts. */
  lemma AcceptIffFeasible(events: seq<Event>, t: int, duration: nat, dest: string, travel: Option<Estimator>)
    ensures Evaluate(events, t, duration, dest, travel).Accept? <==> Feasible(events, t, duration, dest, travel)
  {
    PreviousIndexIsPrevious(events, t);
    NextIndexIsNext(events, t + duration * Minute);
  }

  /** The rejections, case by case: on overlap the cursor target is the latest end among the
      overlapping events; a too-early start is rejected with the previous event's bound; a
      too-late one with the next event's start. */
  lemma RejectionCases(events: seq<Event>, t: int, duration: nat, dest: string, travel: Option<Estimator>)
    ensures var v := Evaluate(events, t, duration, dest, travel);
      v.Overlap? <==> exists i :: 0 <= i < |events| && Overlaps(events[i], t, t + duration * Minute)
    ensures var v := Evaluate(events, t, duration, dest, travel);
      v.Overlap? ==>
        && (forall i :: 0 <= i < |events| && Overlaps(events[i], t, t + duration * Minute) ==> events[i].end <= v.jumpTo)
        && (exists i :: 0 <= i < |events| && Overlaps(events[i], t, t + duration * Minute) && events[i].end == v.jumpTo)
        && Advance(events, t, duration, dest, travel) == v.jumpTo
    ensures var v := Evaluate(events, t, duration, dest, travel);
      v.TooEarly? ==>
        exists i :: IsPrevious(events, i, t) && v.earliest == EarliestStart(events[i], dest, travel) && t < v.earliest
                    && Advance(events, t, duration, dest, travel) == v.earliest + StepMinutes * Minute
    ensures var v := Evaluate(events, t, duration, dest, travel);
      v.TooLate? ==>
        exists j :: IsNext(events, j, t + duration * Minute) && v.nextStart == events[j].start
                    && TooLateFor(events[j], t + duration * Minute, dest, travel)
                    && Advance(events, t, duration, dest, travel) == v.nextStart + StepMinutes * Minute
    ensures var v := Evaluate(events, t, duration, dest, travel);
      v.Accept? ==> Advance(events, t, duration, dest, travel) == t + StepMinutes * Minute
  {
    PreviousIndexIsPrevious(events, t);
    NextIndexIsNext(events, t + duration * Minute);
  }

  /** The buffer guarantees of a feasible start, spelled out per case: 15 minutes after the
      previous event (plus travel when the estimator answers), and 15 minutes (plus travel)
      before the next one.  When the estimator is asked but has no data, only the bare
      previous end bounds the start and the next event imposes nothing. */
  lemma FeasibleGaps(events: seq<Event>, t: int, duration: nat, dest: string, travel: Option<Estimator>, i: int, j: int)
    requires Feasible(events, t, duration, dest, travel)
    ensures IsPrevious(events, i, t) ==> events[i].end <= t
    ensures IsPrevious(events, i, t) && !Consults(events[i].location, dest, travel) ==>
              events[i].end + BufferMinutes * Minute <= t
    ensures IsPrevious(events, i, t) && Consults(events[i].location, dest, travel) ==>
              match travel.value(events[i].location.value, dest, events[i].end)
              case None => true
              case Some(m) => events[i].end + (m + BufferMinutes) * Minute <= t
    ensures IsNext(events, j, t + duration * Minute) && !Consults(events[j].location, dest, travel) ==>
              t + duration * Minute + BufferMinutes * Minute <= events[j].start
    ensures IsNext(events, j, t + duration * Minute) && Consults(events[j].location, dest, travel) ==>
              match travel.value(dest, events[j].location.value, t + duration * Minute)
              case None => true
              case Some(m) => t + duration * Minute + (m + BufferMinutes) * Minute <= events[j].start
  {
    if IsPrevious(events, i, t) {
      var b := EarliestStart(events[i], dest, travel);
      assert b <= t;
    }
  }

  // ---------------------------------------------------------------------------
  // The engine

  /** The cursor loop's path when the cursor is at `t`: `visited` is the chain of examined
      values from `first`, all within `limit` and below `t`. */
  ghost predicate WalkedChain(first: int, limit: int, step: int -> int, t: int, visited: seq<int>)
  {
    && first <= t
    && (|visited| == 0 ==> t == first)
    && (|visited| > 0 ==> visited[0] == first && t == step(visited[|visited| - 1]))
    && (forall i :: 0 <= i < |visited| ==> first <= visited[i] <= limit && visited[i] < t)
    && (forall i, j :: 0 <= i && j == i + 1 && j < |visited| ==> visited[j] == step(visited[i]))
  }

  /** The cursor loop's record when the cursor is at `t`: `starts` holds exactly the accepted
      values of `visited`, in increasing order and below `t`. */
  ghost predicate WalkedRecord(accept: int -> bool, t: int, starts: seq<int>, visited: seq<int>)
  {
    && (forall k :: 0 <= k < |starts| ==> starts[k] in visited && accept(starts[k]) && starts[k] < t)
    && (forall i :: 0 <= i < |visited| && accept(visited[i]) ==> visited[i] in starts)
    && (forall k, l :: 0 <= k < l < |starts| ==> starts[k] < starts[l])
  }

  /** One iteration of the cursor loop extends the chain. */
  lemma WalkedChainStep(first: int, limit: int, step: int -> int, t: int, visited: seq<int>)
    requires forall x :: x < step(x)
    requires WalkedChain(first, limit, step, t, visited) && t <= limit
    ensures WalkedChain(first, limit, step, step(t), visited + [t])
  {
  }

  /** One iteration of the cursor loop keeps the record. */
  lemma WalkedRecordStep(step: int -> int, accept: int -> bool, t: int, starts: seq<int>, visited: seq<int>)
    requires forall x :: x < step(x)
    requires WalkedRecord(accept, t, starts, visited)
    ensures WalkedRecord(accept, step(t), if accept(t) then starts + [t] else starts, visited + [t])
  {
  }

  /** The loop skeleton of `_calculate_available_slots`: the cursor starts at `first`, every
      value up to `limit` is examined, accepted values are recorded, and `step` (which always
      moves forward) gives the next cursor.  `visited` is the sequence of examined values. */
  method Walk(first: int, limit: int, step: int -> int, accept: int -> bool)
    returns (starts: seq<int>, ghost visited: seq<int>)
    requires forall x :: x < step(x)
    ensures |visited| > 0 ==> visited[0] == first
    ensures forall i :: 0 <= i < |visited| ==> first <= visited[i] <= limit
    ensures forall i, j :: 0 <= i && j == i + 1 && j < |visited| ==> visited[j] == step(visited[i])
    ensures (if |visited| == 0 then first else step(visited[|visited| - 1])) > limit
    ensures forall k :: 0 <= k < |starts| ==> starts[k] in visited && accept(starts[k])
    ensures forall i :: 0 <= i < |visited| && accept(visited[i]) ==> visited[i] in starts
    ensures forall k, l :: 0 <= k < l < |starts| ==> starts[k] < starts[l]
  {
    var t := first;
    starts := [];
    visited := [];
    while t <= limit
      invariant WalkedChain(first, limit, step, t, visited)
      invariant WalkedRecord(accept, t, starts, visited)
      decreases limit - t
    {
      WalkedChainStep(first, limit, step, t, visited);
      WalkedRecordStep(step, accept, t, starts, visited);
      if accept(t) {
        starts := starts + [t];
      }
      visited := visited + [t];
      t := step(t);
    }
  }

  /** `_calculate_available_slots` for the business day `day`.  `visited` is the sequence of
      cursor values the loop examined; the offered slots are exactly the accepted ones among them. */
  method CalculateAvailableSlots(events: seq<Event>, day: int, now: int, duration: nat,
                                 dest: string, travel: Option<Estimator>)
    returns (slots: seq<Slot>, ghost visited: seq<int>)
    ensures forall k :: 0 <= k < |slots| ==> slots[k].end == slots[k].start + duration * Minute
    ensures forall k :: 0 <= k < |slots| ==>
              FirstCandidate(day, now) <= slots[k].start && slots[k].end <= DayEnd(day)
    ensures forall k :: 0 <= k < |slots| ==> Feasible(events, slots[k].start, duration, dest, travel)
    ensures forall k, l :: 0 <= k < l < |slots| ==> slots[k].start < slots[l].start
    ensures |visited| > 0 ==> visited[0] == FirstCandidate(day, now)
    ensures forall i :: 0 <= i < |visited| ==> visited[i] + duration * Minute <= DayEnd(day)
    ensures forall i, j :: 0 <= i && j == i + 1 && j < |visited| ==>
              visited[j] == Advance(events, visited[i], duration, dest, travel)
    ensures (if |visited| == 0 then FirstCandidate(day, now)
             else Advance(events, visited[|visited| - 1], duration, dest, travel)) + duration * Minute > DayEnd(day)
    ensures forall k :: 0 <= k < |slots| ==>
              slots[k].start in visited && Evaluate(events, slots[k].start, duration, dest, travel).Accept?
    ensures forall i :: 0 <= i < |visited| && Evaluate(events, visited[i], duration, dest, travel).Accept? ==>
              exists k :: 0 <= k < |slots| && slots[k].start == visited[i]
  {
    var step := x => Advance(events, x, duration, dest, travel);
    var accept := x => Evaluate(events, x, duration, dest, travel).Accept?;
    var starts;
    starts, visited := Walk(FirstCandidate(day, now), DayEnd(day) - duration * Minute, step, accept);
    forall i, j | 0 <= i && j == i + 1 && j < |visited|
      ensures visited[j] == Advance(events, visited[i], duration, dest, travel)
    {
      assert visited[j] == step(visited[i]);
    }
    slots := seq(|starts|, k requires 0 <= k < |starts| => Slot(starts[k], starts[k] + duration * Minute));
    forall k | 0 <= k < |slots|
      ensures slots[k].start in visited && Evaluate(events, slots[k].start, duration, dest, travel).Accept?
      ensures Feasible(events, slots[k].start, duration, dest, travel)
    {
      assert slots[k].start == starts[k] && accept(starts[k]);
      AcceptIffFeasible(events, slots[k].start, duration, dest, travel);
    }
    forall i | 0 <= i < |visited| && Evaluate(events, visited[i], duration, dest, travel).Accept?
      ensures exists k :: 0 <= k < |slots| && slots[k].start == visited[i]
    {
      assert accept(visited[i]);
      var k :| 0 <= k < |starts| && starts[k] == visited[i];
      assert slots[k].start == visited[i];
    }
  }

  /** A day with no events offers every 10-minute step from the first candidate on that still fits. */
  lemma EmptyDayIsFullGrid(duration: nat, dest: string, travel: Option<Estimator>, t: int)
    ensures Evaluate([], t, duration, dest, travel) == Accept
    ensures Advance([], t, duration, dest, travel) == t + StepMinutes * Minute
  {
  }

  /** The rejection jump overshoots: with one event from 10:00 to 11:00 and no travel data, the
      candidate 11:00 is rejected with the bound 11:20, the cursor moves on to 11:30, and the
      feasible start 11:20 is never examined. */
  lemma RejectionSkipsFeasibleStart(d: int)
    ensures var ev := Event("e", At(d, 10, 0), At(d, 11, 0), None);
      && Evaluate([ev], At(d, 11, 0), 60, "", None) == TooEarly(At(d, 11, 20))
      && Advance([ev], At(d, 11, 0), 60, "", None) == At(d, 11, 30)
      && Feasible([ev], At(d, 11, 20), 60, "", None)
  {
    var ev := Event("e", At(d, 10, 0), At(d, 11, 0), None);
    var h := d * 24 + 11;
    assert At(d, 11, 15) == h * Hour + 15 * Minute + 0;
    Compose(h, 15, 0);
    assert At(d, 11, 20) == h * Hour + 20 * Minute + 0;
    Compose(h, 20, 0);
    assert RoundUpTo10(At(d, 11, 15)) == At(d, 11, 20);
    assert EarliestStart(ev, "", None) == At(d, 11, 20);
    PreviousIndexIsPrevious([ev], At(d, 11, 0));
    PreviousIndexIsPrevious([ev], At(d, 11, 20));
    AcceptIffFeasible([ev], At(d, 11, 20), 60, "", None);
  }

  // ---------------------------------------------------------------------------
  // The request path (getcalendar.py, `get_available_slots` and its route)

  /** Service durations in minutes as the routes map them; unknown services are rejected. */
  function ServiceDuration(service: string): (r: Option<nat>)
    ensures r.Some? <==> service == "Essential Clean" || service == "Premium Detail"
    ensures service == "Essential Clean" ==> r == Some(60)
    ensures service == "Premium Detail" ==> r == Some(120)
  {
    if service == "Essential Clean" then Some(60)
    else if service == "Premium Detail" then Some(120)
    else None
  }

  /** The destination text the route builds: the address (Python renders a missing one as
      "None"), followed by " Unit <unit>" when a non-empty unit is given. */
  function FullAddress(address: Option<string>, unit: Option<string>): (r: string)
    ensures address.Some? && (unit.None? || unit.value == "") ==> r == address.value
    ensures address.Some? && unit.Some? && unit.value != "" ==> r == address.value + " Unit " + unit.value
    ensures address.None? && unit.Some? && unit.value != "" ==> r == "None Unit " + unit.value
    ensures address.None? && (unit.None? || unit.value == "") ==> r == "None"
  {
    var base := if address.Some? then address.value else "None";
    if unit.Some? && unit.value != "" then base + " Unit " + unit.value else base
  }

  datatype RouteError = InvalidServiceType

  /** The `/api/available-slots` route: the service name selects the duration, an estimator is
      created only for a non-empty destination, and the engine runs on that day's events.  On
      success the answer the route means to send is the engine's, unchanged: every accepted cursor value of
      the engine's walk (`visited`) is offered, each offered slot is feasible, in increasing order. */
  method AvailableSlotsRoute(service: string, address: Option<string>, unit: Option<string>,
                             day: int, now: int, events: seq<Event>, estimator: Estimator)
    returns (r: Result, ghost visited: seq<int>)
    ensures r.Failed? <==> ServiceDuration(service).None?
    ensures r.Ok? ==> forall k :: 0 <= k < |r.slots| ==>
              r.slots[k].end == r.slots[k].start + ServiceDuration(service).value * Minute
              && DayStart(day) <= r.slots[k].start && r.slots[k].end <= DayEnd(day)
              && (DayOf(now) == day ==> now <= r.slots[k].start)
    ensures r.Ok? ==> forall k :: 0 <= k < |r.slots| ==>
              var dest := FullAddress(address, unit);
              Feasible(events, r.slots[k].start, ServiceDuration(service).value, dest,
                       if dest != "" then Some(estimator) else None)
    ensures r.Ok? ==> forall k, l :: 0 <= k < l < |r.slots| ==> r.slots[k].start < r.slots[l].start
    ensures r.Ok? ==> |visited| > 0 ==> visited[0] == FirstCandidate(day, now)
    ensures r.Ok? ==>
              var dest := FullAddress(address, unit);
              var travel := if dest != "" then Some(estimator) else None;
              forall i, j :: 0 <= i && j == i + 1 && j < |visited| ==>
                visited[j] == Advance(events, visited[i], ServiceDuration(service).value, dest, travel)
    ensures r.Ok? ==>
              var dest := FullAddress(address, unit);
              var travel := if dest != "" then Some(estimator) else None;
              var d := ServiceDuration(service).value;
              && (forall i :: 0 <= i < |visited| ==> visited[i] + d * Minute <= DayEnd(day))
              && (if |visited| == 0 then FirstCandidate(day, now)
                  else Advance(events, visited[|visited| - 1], d, dest, travel)) + d * Minute > DayEnd(day)
    ensures r.Ok? ==>
              var dest := FullAddress(address, unit);
              var travel := if dest != "" then Some(estimator) else None;
              forall i :: 0 <= i < |visited| && Evaluate(events, visited[i], ServiceDuration(service).value, dest, travel).Accept? ==>
                exists k :: 0 <= k < |r.slots| && r.slots[k].start == visited[i]
  {
    var duration := ServiceDuration(service);
    if duration.None? {
      return Failed(InvalidServiceType), [];
    }
    var dest := FullAddress(address, unit);
    var travel := if dest != "" then Some(estimator) else None;
    var slots;
    slots, visited := CalculateAvailableSlots(events, day, now, duration.value, dest, travel);
    r := Ok(slots);
  }

  datatype Result = Ok(slots: seq<Slot>) | Failed(error: RouteError)
}
